=== FILE: README.md ===
# RoomCast signalling, modelled in Dafny

RoomCast is a one-to-one video call app. Its Go relay (`internal/signaling`) keeps rooms of
peers, each peer holding one websocket connection. It passes WebRTC signalling messages
between the members of a room: offers, answers and ICE candidates. The browser component
(`ui/src/components/Room.tsx`) reacts to those messages with its peer connection.

The model covers both halves and how they meet.

- `Json` (json.dfy) is a JSON document as a datatype. It has exact-key property reads, where the last duplicate wins, as in JavaScript.
- `Message` (message.dfy) models the message-type constants and the `Envelope` record. Its `json.Marshal` writes `type` always and the other fields only when non-empty (`omitempty`). Its `json.Unmarshal` matches keys ASCII-case-insensitively, lets the last duplicate win, and turns a top-level `null` into the zero envelope. A `null` member leaves a string field unchanged but gives a raw field the non-nil value `null`: an offer whose `payload` member is `null` is forwarded with `"payload":null`, not with its legacy `offer` field. The module also proves the encode/decode round trip and what a browser reads from an encoded envelope.
- `Connection` (connection.dfy) is a connection and `Enqueue` onto its 256-slot outbox, which drops the frame when the outbox is full.
- `Hub` (hub.dfy) is the room registry: `getOrCreateRoom`, `removeRoomIfEmpty`, `Join`, `Leave`, `Broadcast`, `SendTo` and `ListPeers`.
- `Lifecycle` (lifecycle.dfy) is the whole relay: the registry plus every connection. It covers admission of a websocket (`cmd/server/main.go`) and `cleanup`. It also defines the relay invariant `Valid`:
  - every registry entry points at an existing connection (not necessarily an open one) filed under that connection's own room and peer id;
  - no room is empty;
  - every connection has ids and a bounded outbox, and its `closeCh` has been closed once if it is marked closed and never otherwise (Go panics on a second `close`).
- `Handlers` (handlers.dfy) is `handleIncoming`: one inbound frame, decoded, normalised and routed as one atomic step.
- `Client` (client.dfy) is the browser's `handleMessage`, `onicecandidate` and media set-up, over an abstract peer connection.
- `EndToEnd` (endtoend.dfy) traces a candidate, an offer/answer exchange and the join handshake from one browser through the relay to the other browser.

A frame is either parsed JSON or bytes that do not parse. A browser message is the JSON
value `JSON.parse` yields. Session descriptions and candidates are identified with the JSON
text `JSON.stringify` makes of them. What the browser's WebRTC calls yield is a parameter
(`Client.Outcomes`): the offer or answer created, and whether each `set…`/`addIceCandidate`
call resolves. Following the WebRTC 1.0 recommendation (W3C), `addIceCandidate` always
rejects while the remote description is null, whatever that parameter says.

Go's map iteration order is unspecified. `Hub.ListPeers` therefore lists the room in an
order fixed by a ghost choice, and `Handlers.HandleIncoming`, which embeds that list in the
join acknowledgement, is a ghost function.

## Model

| member | source | states |
|---|---|---|
| Message.Classify | internal/signaling/message.go:7-16 | A type string selects a constant exactly when it equals that constant's text. |
| Message.TagsDistinct | internal/signaling/message.go:7-16 | The eight constants have pairwise different texts, and the notice type `peer_joined` is none of them, so the relay's switch ignores it. |
| Message.FieldOf | internal/signaling/message.go:18-30 | A JSON key selects field `f` exactly when it equals `f`'s tag up to ASCII case; at most one field matches any key. |
| Message.Assign | internal/signaling/message.go:18-30 | Decoding one member: a string field takes a string, ignores `null` and rejects anything else; a raw field takes any value, `null` included, as non-nil; no other field changes. |
| Message.DecodeMembers | internal/signaling/message.go:18-30 | Decoding the members of an object fails exactly when some member is refused. |
| Message.Decode | internal/signaling/message.go:18-30 | Unmarshal succeeds exactly for `null` or an object with no refused member; `null` gives the zero envelope. |
| Message.DecodeFrame | internal/signaling/handlers.go:9-13 | Bytes that are not JSON are an error, never an envelope. |
| Message.Encode | internal/signaling/message.go:18-30 | Marshal writes an object whose first member is `type` with the envelope's type. |
| Message.RoundTrip | internal/signaling/message.go:18-30 | Decoding what Marshal wrote gives back the same envelope: leaving out empty fields loses nothing. |
| Message.EncodedProp | internal/signaling/message.go:18-30 | A browser reading an encoded envelope by exact key finds `type` always. Any other key is present exactly when its field is non-empty, and it holds the field's value. |
| Message.LastEmitAll | internal/signaling/message.go:18-30 | In the members written for a list of distinct fields, the last member under a field's key is the one that field wrote, or none if the field is not listed. |
| Connection.Enqueue | internal/signaling/connection.go:37-43 | Below 256 queued frames the frame is appended; at 256 it is dropped. Nothing but the outbox changes, and the 256 bound is kept. |
| Connection.EnqueueN | internal/signaling/connection.go:37-43 | `n` enqueues of a frame append exactly min(n, free slots) copies of it behind the old outbox, and none when the outbox is full. |
| Hub.GetOrCreateRoom | internal/signaling/hub.go:28-41 | The room exists afterwards. An existing room is returned with the registry unchanged; otherwise a fresh empty room is added under that id alone. |
| Hub.RemoveRoomIfEmpty | internal/signaling/hub.go:45-56 | The room is deleted exactly when it exists and has no peers; every other room is untouched. |
| Hub.Join | internal/signaling/hub.go:59-64 | The peer id maps to the connection in the room, created if missing. The room's other peers keep their connections, a rejoin replaces the old entry, and other rooms are untouched. |
| Hub.Leave | internal/signaling/hub.go:67-78 | An unknown room changes nothing. Otherwise the peer id is removed and the room survives exactly when other peers remain; other rooms are untouched. |
| Hub.JoinLeaveKeepRoomsNonEmpty | internal/signaling/hub.go:59-78 | Join and Leave both keep the invariant that no registered room is empty. |
| Hub.Broadcast | internal/signaling/hub.go:80-95 | An unknown room changes nothing. Otherwise only outboxes change, each only by growing behind its old contents, and only for connections of the room's peers other than the excluded one (none is excluded when the id is empty). |
| Hub.BroadcastOnce | internal/signaling/hub.go:80-95 | When the room's peers sit on different connections, a broadcast is exactly one enqueue of the frame for each recipient and nothing for the rest. |
| Hub.SendTo | internal/signaling/hub.go:97-110 | The frame is enqueued once on the target's connection when the target is in the room; otherwise nothing changes. |
| Hub.ListPeers | internal/signaling/hub.go:113-127 | An unknown room gives nil. Otherwise the list holds every peer id of the room exactly once. |
| Lifecycle.Connect | cmd/server/main.go:18-39 | An empty room or peer parameter is refused. Otherwise a fresh open connection is created and registered under its room and peer id: the registry changes exactly as `Hub.Join` changes it, no other connection appears, and existing connections are untouched. |
| Lifecycle.ConnectPreservesValid | cmd/server/main.go:35-39 | Admitting a connection keeps the relay invariant. |
| Lifecycle.Cleanup | internal/signaling/connection.go:95-107 | Cleanup performs Hub.Leave with the connection's room and peer id and leaves every other connection unchanged. |
| Lifecycle.CleanupEffects | internal/signaling/connection.go:95-107 | Afterwards the connection is closed and its peer id is gone from its room. The room is gone if that was its last peer, and the close callback ran once if there is one. `close(closeCh)` is called only if the connection was still open. |
| Lifecycle.CleanupTwice | internal/signaling/connection.go:95-107 | A second cleanup (both pumps call it) leaves the registry and the close flag as the first did and does not call `close(closeCh)` again, so it cannot panic; only the callback runs again. |
| Lifecycle.CleanupPreservesValid | internal/signaling/connection.go:95-107 | Cleanup keeps the relay invariant, including that `closeCh` is closed at most once. |
| Lifecycle.StaleCleanupEvictsSuccessor | internal/signaling/connection.go:102 | Cleanup removes by peer id. A late cleanup of a retired connection evicts a newer connection registered since under the same ids, and leaves that newer connection open. |
| Handlers.Normalize | internal/signaling/handlers.go:15-25 | An empty `from` becomes the connection's peer id. An empty `roomId` becomes the connection's room, and the legacy `room` only if both are empty. Nothing else changes. |
| Handlers.ChoosePayload | internal/signaling/handlers.go:52-59 | The forwarded payload is `payload` when present, else the type's legacy field; the legacy field exactly when `payload` is nil; there is none exactly when both are nil. |
| Handlers.HandleIncoming | internal/signaling/handlers.go:8-137 | No connection appears or disappears. A frame that does not decode changes nothing, and only `leave` touches the registry. |
| Handlers.JoinReply | internal/signaling/handlers.go:30-47 | `join`: the sender gets one acknowledgement from "server" with the room's peer list. Every other member gets one `peer_joined` from the sender, and the sender is not among them. |
| Handlers.JoinAckListsRoom | internal/signaling/handlers.go:31-39 | The acknowledgement to a registered peer lists exactly the peers of its room, itself included. |
| Handlers.LeaveCleansUp | internal/signaling/handlers.go:49-50 | `leave` is exactly the connection's cleanup. |
| Handlers.RelayedDelivery | internal/signaling/handlers.go:52-122 | An offer, answer or candidate with a payload reaches the routing targets once, with the same type, the normalised `roomId`, `from` and `to`, and that payload. Without a payload nothing is sent. |
| Handlers.MessageDelivery | internal/signaling/handlers.go:124-129 | `message`: the original frame, unchanged, reaches the routing targets once. |
| Handlers.PingReply | internal/signaling/handlers.go:131-133 | `ping`: the sender alone gets a `pong` from "server". |
| Handlers.OthersDropped | internal/signaling/handlers.go:135-136 | `pong`, `peer_joined` and unknown types change nothing. |
| Handlers.RecipientsAreRoomMates | internal/signaling/hub.go:89-94 | Under the invariant, the recipients of a broadcast excluding peer `p` are exactly the connections of the room's other peers. |
| Handlers.TargetsInRoom | internal/signaling/handlers.go:69-73 | Every routing target is a connection of the sender's own room. |
| Handlers.NoCrossRoomDelivery | internal/signaling/handlers.go:29-137 | Routing uses the connection's room, never the envelope's `roomId`: whatever a frame says, every outbox it adds to belongs to the sender's room. |
| Handlers.HandlePreservesValid | internal/signaling/handlers.go:8-137 | Handling any frame keeps the relay invariant, the 256-frame bound included. |
| Handlers.ForwardedReads | internal/signaling/handlers.go:62-68 | A browser reading a forwarded envelope finds its type, the `from` after defaulting (the connection's peer id unless the client wrote its own), the `to` as sent (absent when empty) and the payload. |
| Client.Outgoing | ui/src/components/Room.tsx:140-144 | A sent message reads back with its type, its `to` exactly when one was given, and its payload text. |
| Client.CandidateMessage | ui/src/components/Room.tsx:84-91 | A candidate message reads as `candidate` with the candidate text and no `to`. |
| Client.Start | ui/src/components/Room.tsx:30-122 | With media granted, the peer connection is created with nothing negotiated and one `join` is sent, with the remote-connected flag untouched; otherwise nothing changes. |
| Client.OnIceCandidate | ui/src/components/Room.tsx:84-91 | A gathered candidate sends one candidate message; the end-of-gathering event sends nothing. |
| Client.PayloadText | ui/src/components/Room.tsx:152-156 | A truthy string payload is handed to `JSON.parse`; a missing or falsy one never is. |
| Client.HandleMessage | ui/src/components/Room.tsx:125-205 | With no peer connection nothing changes, and one is never created or dropped here. At most one message is sent and at most one candidate added, both append-only; a candidate is added only by a `candidate` message and only once a remote description is set. A sent message goes to the sender's `from` with the new local description; only `user-left` clears the remote flag. |
| Client.PeerJoinedSendsOffer | ui/src/components/Room.tsx:133-147 | `peer_joined`: the created offer becomes the local description and exactly one offer is sent to `from`. If either step fails, nothing changes. |
| Client.OfferAnswered | ui/src/components/Room.tsx:148-169 | `offer` with a payload, when parsing it, `setRemoteDescription`, `createAnswer` and `setLocalDescription` all succeed: the offer becomes the remote description, the created answer the local one, and exactly one answer is sent to `from`. |
| Client.OfferAbortsWithoutRollback | ui/src/components/Room.tsx:148-205 | A failure after the remote description was set ends the run with that description still set and nothing sent. |
| Client.OfferRemoteFails | ui/src/components/Room.tsx:148-205 | An offer whose parse or `setRemoteDescription` fails changes nothing and sends nothing. |
| Client.AnswerSetsRemote | ui/src/components/Room.tsx:170-182 | `answer` with a payload becomes the remote description when parsing it and `setRemoteDescription` succeed, and is a no-op when they fail; nothing is sent either way. |
| Client.CandidateAppliedAtOnce | ui/src/components/Room.tsx:183-195 | Once a remote description is set, a candidate with a payload that the browser accepts is appended at once and nothing is sent. |
| Client.EarlyCandidateLost | ui/src/components/Room.tsx:183-195 | Before any remote description is set, a candidate changes nothing: `addIceCandidate` rejects, the handler's catch swallows it, and no queue keeps the candidate. |
| Client.CandidateRejected | ui/src/components/Room.tsx:183-205 | A candidate that parsing or `addIceCandidate` rejects changes nothing, even with a remote description set. |
| Client.MissingPayloadIgnored | ui/src/components/Room.tsx:148-195 | An offer, answer or candidate without a truthy payload changes nothing. |
| Client.OthersIgnored | ui/src/components/Room.tsx:132-202 | Any type the switch does not name (`join`, `pong`, `message`, none at all) changes nothing. |
| Client.UserLeftClearsRemote | ui/src/components/Room.tsx:196-201 | `user-left` clears the remote-connected flag and changes nothing else. |
| EndToEnd.DecodeOutgoing | internal/signaling/handlers.go:8-13 | The relay decodes a browser message to its type, `to` and payload, with every other field empty. |
| EndToEnd.CandidateRelayed | internal/signaling/handlers.go:100-122 | A browser's candidate reaches every other member of its room, once each and nobody else. A browser writes no `from`, so it arrives as `candidate` from the sender's peer id with the candidate text unchanged. |
| EndToEnd.CandidateApplied | ui/src/components/Room.tsx:183-195 | The receiving browser applies that relayed candidate when it already holds a remote description and `addIceCandidate` accepts it, and loses it when it holds no remote description. |
| EndToEnd.AddressedRelayed | internal/signaling/handlers.go:52-98 | An offer or answer addressed to a peer id reaches that peer's connection in the sender's room and nothing else. It is stamped with the sender's peer id. |
| EndToEnd.OfferAnsweredBack | ui/src/components/Room.tsx:148-169 | When parsing the offer, `setRemoteDescription`, `createAnswer` and `setLocalDescription` succeed, the addressee of a relayed offer adopts it and sends its answer to the offerer's peer id. |
| EndToEnd.AnswerAdopted | ui/src/components/Room.tsx:170-182 | When parsing the answer and `setRemoteDescription` succeed, the addressee of a relayed answer adopts it as its remote description. |
| EndToEnd.JoinAnnounced | internal/signaling/handlers.go:30-47 | A browser's `join` is acknowledged to it and announced to every other member as `peer_joined` from its peer id. |
| EndToEnd.ServerRepliesIgnored | ui/src/components/Room.tsx:132-202 | The relay's join acknowledgement and its `pong` reach a browser as types it ignores, so they change nothing. |
| EndToEnd.PeerJoinedAnsweredWithOffer | ui/src/components/Room.tsx:133-147 | When `createOffer` and `setLocalDescription` succeed, a member told of a newcomer sends exactly one offer, addressed to the newcomer's peer id. |
| EndToEnd.TypeReadTwoWays | internal/signaling/handlers.go:124-129 | One frame can read as `message` to the relay (a case variant of `type` comes last) and as `user-left` to the browser (exact key). The relay forwards it unchanged to the room, and each recipient drops its remote video though nobody left. |

## Left out

- The read and write pumps, the websocket itself, the ping ticker and deadlines are not modelled. The outbox only grows; draining it to the socket is left out.
- Mutexes and concurrency are not modelled: each `handleIncoming`, `Join`, `Leave` and `cleanup` is one atomic step. Interleavings between the read pump and the write pump are not modelled.
- Logging is not modelled: `log.Printf`, `console.log` and the text of errors.
- JSON is modelled at the value level. The text syntax, escapes, whitespace and the 1 MiB read limit are not modelled, and numbers are integers.
- Go folds a few non-ASCII letters onto ASCII when matching keys (the Kelvin sign onto `k`, the long s onto `s`). The model folds ASCII only.
- Hub.ListPeers: Go's map iteration order is unspecified. The model fixes one order by a ghost choice, and states only what every order shares.
- Client.PayloadText: a truthy payload that is not a string is treated as a failing `JSON.parse`. The browser would coerce it to text first and, for a few values, reach the WebRTC call.
- Client.HandleMessage: each message is handled to completion before the next. The handler is `async`, and runs that overlap at an `await` are not modelled.
- `useSocket.ts` is left out: its readiness check in `send` and its parsing of frames are not modelled. A sent message is recorded as handed to `send`.
- The media tracks, `ontrack`, the video elements and the mic/camera toggles are left out; the remote-connected flag is modelled only where the message handler clears it.
- The pages under `ui/src/app` and the `pkg/roomcaste` package are not part of this model.

=== FILE: basics.dfy ===
/** Optional values and results shared by every module of the model. */
module Basics {

  /** A value that may be absent: Go's nil slice or nil raw message, JavaScript's undefined. */
  datatype Option<+T> = None | Some(value: T)

  /** The outcome of an operation that can fail, such as `json.Unmarshal`. */
  datatype Result<+T, +E> = Success(value: T) | Failure(error: E)
}

=== FILE: client.dfy ===
/**
 * The browser side of a call (ui/src/components/Room.tsx): the message handler and
 * the candidate callback, over an abstract peer connection. Session descriptions and
 * candidates are opaque and identified with their JSON text. What the browser's
 * WebRTC calls yield (an offer or answer, or a rejection) is given as `Outcomes`.
 */
module Client {
  import opened Basics
  import opened Json

  /** A session description, as the JSON text `JSON.stringify` makes of it. */
  type Sdp = string

  /** An ICE candidate, as the JSON text `JSON.stringify` makes of it. */
  type Ice = string

  /** The peer connection as the handler sees it: both descriptions and the candidates applied so far. */
  datatype PeerConnection = PeerConnection(local: Option<Sdp>, remote: Option<Sdp>, candidates: seq<Ice>)

  /** The component state: the peer connection once created, every message handed to `send`, the remote-video flag. */
  datatype ClientState = ClientState(pc: Option<PeerConnection>, sent: seq<Json>, remoteConnected: bool)

  /**
   * What the awaited browser calls yield during one handler run: the description
   * `createOffer`/`createAnswer` resolves with (None if it rejects), whether
   * `setLocalDescription` resolves, whether parsing the payload and
   * `setRemoteDescription` succeed, and whether parsing it and `addIceCandidate` do
   * once a remote description is set (before that the call always rejects).
   */
  datatype Outcomes = Outcomes(created: Option<Sdp>, localSet: bool, remoteSet: bool, candidateAdded: bool)

  /** JavaScript truthiness of a property value; `undefined` is `None`. */
  predicate Truthy(v: Option<Json>)
  {
    match v
    case None => false
    case Some(j) =>
      match j
      case Null => false
      case Bool(b) => b
      case Num(n) => n != 0
      case Str(s) => s != ""
      case _ => true
  }

  /** The members of the object passed to `send`; `to` is dropped by JSON.stringify when it is undefined. */
  function OutgoingMembers(typ: string, to: Option<Json>, payload: string): seq<Member>
  {
    [Member("type", Str(typ))] + (if to.Some? then [Member("to", to.value)] else []) + [Member("payload", Str(payload))]
  }

  lemma ReadOutgoing(typ: string, to: Option<Json>, payload: string)
    ensures Last(OutgoingMembers(typ, to, payload), "type") == Some(Str(typ))
    ensures Last(OutgoingMembers(typ, to, payload), "to") == to
    ensures Last(OutgoingMembers(typ, to, payload), "payload") == Some(Str(payload))
  {
    var head := [Member("type", Str(typ))] + (if to.Some? then [Member("to", to.value)] else []);
    var tail := [Member("payload", Str(payload))];
    assert OutgoingMembers(typ, to, payload) == head + tail;
    LastAppend(head, tail, "to");
    LastAppend(head, tail, "type");
    LastAppend(head, tail, "payload");
    if to.Some? {
      assert head == [head[0]] + [head[1]];
      LastAppend([head[0]], [head[1]], "to");
      LastAppend([head[0]], [head[1]], "type");
    }
  }

  /** A message the handler sends: its type, `to` exactly when given, and the payload text. */
  function Outgoing(typ: string, to: Option<Json>, payload: string): (j: Json)
    ensures Prop(j, "type") == Some(Str(typ))
    ensures Prop(j, "to") == to
    ensures Prop(j, "payload") == Some(Str(payload))
  {
    ReadOutgoing(typ, to, payload);
    Obj(OutgoingMembers(typ, to, payload))
  }

  /** `{type: "join"}`, sent once the peer connection exists. */
  const JoinRequest: Json := Obj([Member("type", Str("join"))])

  /** The candidate message of `onicecandidate`: no `to`, so the relay hands it to every other member. */
  function CandidateMessage(ice: Ice): (j: Json)
    ensures Prop(j, "type") == Some(Str("candidate"))
    ensures Prop(j, "to") == None
    ensures Prop(j, "payload") == Some(Str(ice))
  {
    Outgoing("candidate", None, ice)
  }

  /**
   * Media set-up: with camera and microphone granted, the peer connection is created
   * with nothing negotiated yet and `join` is sent; otherwise the error is only logged.
   */
  function Start(cl: ClientState, mediaGranted: bool): (r: ClientState)
    ensures !mediaGranted ==> r == cl
    ensures mediaGranted ==> r.pc == Some(PeerConnection(None, None, [])) && r.sent == cl.sent + [JoinRequest]
    ensures r.remoteConnected == cl.remoteConnected
  {
    if mediaGranted then cl.(pc := Some(PeerConnection(None, None, [])), sent := cl.sent + [JoinRequest]) else cl
  }

  /** `onicecandidate`: a gathered candidate is sent; the end-of-gathering event (null) sends nothing. */
  function OnIceCandidate(cl: ClientState, candidate: Option<Ice>): (r: ClientState)
    ensures candidate.None? ==> r == cl
    ensures candidate.Some? ==> r == cl.(sent := cl.sent + [CandidateMessage(candidate.value)])
  {
    match candidate
    case None => cl
    case Some(ice) => cl.(sent := cl.sent + [CandidateMessage(ice)])
  }

  /**
   * The text a payload hands to JSON.parse. A missing (falsy) payload is None; so is
   * a truthy non-string, whose parse the model counts as failing.
   */
  function PayloadText(payload: Option<Json>): (r: Option<string>)
    ensures r.Some? ==> Truthy(payload) && payload == Some(Str(r.value))
    ensures !Truthy(payload) ==> r.None?
    ensures Truthy(payload) && payload.value.Str? ==> r == Some(payload.value.s)
  {
    if Truthy(payload) && payload.value.Str? then Some(payload.value.s) else None
  }

  /** `peer_joined`: create an offer, make it the local description, send it to the newcomer. */
  function OnPeerJoined(cl: ClientState, pc: PeerConnection, from: Option<Json>, out: Outcomes): ClientState
  {
    match out.created
    case None => cl
    case Some(offer) =>
      if !out.localSet then cl
      else cl.(pc := Some(pc.(local := Some(offer))), sent := cl.sent + [Outgoing("offer", from, offer)])
  }

  /** `offer`: adopt it as remote description, answer it, send the answer back; a failing step ends the run. */
  function OnOffer(cl: ClientState, pc: PeerConnection, from: Option<Json>, payload: Option<Json>, out: Outcomes): ClientState
  {
    match PayloadText(payload)
    case None => cl
    case Some(offer) =>
      if !out.remoteSet then cl
      else
        var pc1 := pc.(remote := Some(offer));
        match out.created
        case None => cl.(pc := Some(pc1))
        case Some(answer) =>
          if !out.localSet then cl.(pc := Some(pc1))
          else cl.(pc := Some(pc1.(local := Some(answer))), sent := cl.sent + [Outgoing("answer", from, answer)])
  }

  /** `answer`: adopt it as remote description. */
  function OnAnswer(cl: ClientState, pc: PeerConnection, payload: Option<Json>, out: Outcomes): ClientState
  {
    match PayloadText(payload)
    case None => cl
    case Some(answer) => if out.remoteSet then cl.(pc := Some(pc.(remote := Some(answer)))) else cl
  }

  /**
   * `candidate`: hand it to `addIceCandidate` at once, with no buffering. The WebRTC 1.0
   * recommendation (W3C) has `addIceCandidate` reject while the remote description is
   * null, and the handler's catch swallows that rejection, so a candidate arriving before
   * the remote description is lost.
   */
  function OnCandidate(cl: ClientState, pc: PeerConnection, payload: Option<Json>, out: Outcomes): ClientState
  {
    match PayloadText(payload)
    case None => cl
    case Some(ice) =>
      if pc.remote.Some? && out.candidateAdded then cl.(pc := Some(pc.(candidates := pc.candidates + [ice]))) else cl
  }

  /** `handleMessage`: dispatch one parsed message on its `type`. */
  function HandleMessage(cl: ClientState, msg: Json, out: Outcomes): (r: ClientState)
    ensures cl.pc.None? ==> r == cl
    ensures r.pc.Some? <==> cl.pc.Some?
    ensures r.remoteConnected == (cl.remoteConnected && Prop(msg, "type") != Some(Str("user-left")))
            || (cl.pc.None? && cl.remoteConnected)
    ensures |cl.sent| <= |r.sent| <= |cl.sent| + 1 && r.sent[..|cl.sent|] == cl.sent
    ensures r.pc.Some? ==> |cl.pc.value.candidates| <= |r.pc.value.candidates| <= |cl.pc.value.candidates| + 1
    ensures r.pc.Some? ==> r.pc.value.candidates[..|cl.pc.value.candidates|] == cl.pc.value.candidates
    ensures r.pc.Some? && |r.pc.value.candidates| > |cl.pc.value.candidates| ==>
              Typed(msg, "candidate") && cl.pc.value.remote.Some?
    ensures |r.sent| == |cl.sent| + 1 ==>
              && r.pc.Some? && r.pc.value.local.Some?
              && Prop(r.sent[|cl.sent|], "to") == Prop(msg, "from")
              && Prop(r.sent[|cl.sent|], "payload") == Some(Str(r.pc.value.local.value))
              && Prop(r.sent[|cl.sent|], "type") in {Some(Str("offer")), Some(Str("answer"))}
  {
    match cl.pc
    case None => cl
    case Some(pc) =>
      var typ := Prop(msg, "type");
      var from := Prop(msg, "from");
      var payload := Prop(msg, "payload");
      if typ == Some(Str("peer_joined")) then OnPeerJoined(cl, pc, from, out)
      else if typ == Some(Str("offer")) then OnOffer(cl, pc, from, payload, out)
      else if typ == Some(Str("answer")) then OnAnswer(cl, pc, payload, out)
      else if typ == Some(Str("candidate")) then OnCandidate(cl, pc, payload, out)
      else if typ == Some(Str("user-left")) then cl.(remoteConnected := false)
      else cl
  }

  /** Shorthand for the message type a handler run dispatches on. */
  predicate Typed(msg: Json, typ: string)
  {
    Prop(msg, "type") == Some(Str(typ))
  }

  /** A newcomer gets exactly one offer, addressed to it, once the offer is the local description. */
  lemma PeerJoinedSendsOffer(cl: ClientState, msg: Json, out: Outcomes)
    requires cl.pc.Some? && Typed(msg, "peer_joined")
    ensures out.created.Some? && out.localSet ==>
              && HandleMessage(cl, msg, out).pc == Some(cl.pc.value.(local := out.created))
              && HandleMessage(cl, msg, out).sent == cl.sent + [Outgoing("offer", Prop(msg, "from"), out.created.value)]
    ensures !(out.created.Some? && out.localSet) ==> HandleMessage(cl, msg, out) == cl
  {
  }

  /**
   * An offer with a payload becomes the remote description, the answer the local one,
   * and exactly one answer goes back to the sender.
   */
  lemma OfferAnswered(cl: ClientState, msg: Json, sdp: Sdp, out: Outcomes)
    requires cl.pc.Some? && Typed(msg, "offer") && Prop(msg, "payload") == Some(Str(sdp)) && sdp != ""
    requires out.remoteSet && out.created.Some? && out.localSet
    ensures HandleMessage(cl, msg, out).pc == Some(cl.pc.value.(remote := Some(sdp), local := out.created))
    ensures HandleMessage(cl, msg, out).sent == cl.sent + [Outgoing("answer", Prop(msg, "from"), out.created.value)]
  {
    assert PayloadText(Prop(msg, "payload")) == Some(sdp);
    assert HandleMessage(cl, msg, out) == OnOffer(cl, cl.pc.value, Prop(msg, "from"), Prop(msg, "payload"), out);
  }

  /**
   * A failing step of the offer handler ends the run where it stands: a remote
   * description already set stays set, and no answer is sent.
   */
  lemma OfferAbortsWithoutRollback(cl: ClientState, msg: Json, sdp: Sdp, out: Outcomes)
    requires cl.pc.Some? && Typed(msg, "offer") && Prop(msg, "payload") == Some(Str(sdp)) && sdp != ""
    requires out.remoteSet && !(out.created.Some? && out.localSet)
    ensures HandleMessage(cl, msg, out).pc == Some(cl.pc.value.(remote := Some(sdp)))
    ensures HandleMessage(cl, msg, out).sent == cl.sent
  {
  }

  /** An offer whose parse or `setRemoteDescription` fails ends the run before anything changes. */
  lemma OfferRemoteFails(cl: ClientState, msg: Json, out: Outcomes)
    requires Typed(msg, "offer") && !out.remoteSet
    ensures HandleMessage(cl, msg, out) == cl
  {
  }

  /** An answer with a payload becomes the remote description; nothing is sent. */
  lemma AnswerSetsRemote(cl: ClientState, msg: Json, sdp: Sdp, out: Outcomes)
    requires cl.pc.Some? && Typed(msg, "answer") && Prop(msg, "payload") == Some(Str(sdp)) && sdp != ""
    ensures out.remoteSet ==> HandleMessage(cl, msg, out) == cl.(pc := Some(cl.pc.value.(remote := Some(sdp))))
    ensures !out.remoteSet ==> HandleMessage(cl, msg, out) == cl
  {
  }

  /** Once a remote description is set, a candidate the browser accepts is applied at once; nothing is sent. */
  lemma CandidateAppliedAtOnce(cl: ClientState, msg: Json, ice: Ice, out: Outcomes)
    requires cl.pc.Some? && cl.pc.value.remote.Some?
    requires Typed(msg, "candidate") && Prop(msg, "payload") == Some(Str(ice)) && ice != "" && out.candidateAdded
    ensures HandleMessage(cl, msg, out).pc == Some(cl.pc.value.(candidates := cl.pc.value.candidates + [ice]))
    ensures HandleMessage(cl, msg, out).sent == cl.sent
  {
  }

  /** A candidate the browser rejects, remote description or not, changes nothing. */
  lemma CandidateRejected(cl: ClientState, msg: Json, out: Outcomes)
    requires Typed(msg, "candidate") && !out.candidateAdded
    ensures HandleMessage(cl, msg, out) == cl
  {
  }

  /**
   * Before any remote description is set, a candidate changes nothing, whatever the
   * browser would have answered: there is no queue for early candidates.
   */
  lemma EarlyCandidateLost(cl: ClientState, msg: Json, out: Outcomes)
    requires cl.pc.Some? && cl.pc.value.remote.None? && Typed(msg, "candidate")
    ensures HandleMessage(cl, msg, out) == cl
  {
  }

  /** An offer, answer or candidate without a (truthy) payload changes nothing. */
  lemma MissingPayloadIgnored(cl: ClientState, msg: Json, out: Outcomes)
    requires Typed(msg, "offer") || Typed(msg, "answer") || Typed(msg, "candidate")
    requires !Truthy(Prop(msg, "payload"))
    ensures HandleMessage(cl, msg, out) == cl
  {
  }

  /**
   * Every type the switch has no case for (the relay's `join` acknowledgement, `pong`,
   * `message`, a missing type) falls through and changes nothing.
   */
  lemma OthersIgnored(cl: ClientState, msg: Json, out: Outcomes)
    requires Prop(msg, "type") !in {Some(Str("peer_joined")), Some(Str("offer")), Some(Str("answer")),
                                    Some(Str("candidate")), Some(Str("user-left"))}
    ensures HandleMessage(cl, msg, out) == cl
  {
  }

  /** Only `user-left` touches the remote-video flag, and it clears it. */
  lemma UserLeftClearsRemote(cl: ClientState, msg: Json, out: Outcomes)
    requires cl.pc.Some? && Typed(msg, "user-left")
    ensures HandleMessage(cl, msg, out) == cl.(remoteConnected := false)
  {
  }
}

=== FILE: connection.dfy ===
/**
 * A relay connection (internal/signaling/connection.go) reduced to what the
 * signalling logic observes: its identity, its bounded outbox and its close flag.
 * The websocket and the read/write pumps are not modelled; the outbox holds the
 * frames accepted for sending and not yet written.
 */
module Connection {
  import opened Json

  type PeerId = string
  type RoomId = string

  /** Identity of a connection object: the model's stand-in for a `*Connection` pointer. */
  type ConnId = nat

  /** Capacity of the buffered send channel. */
  const SendBuffer: nat := 256

  /**
   * The connection record. `closed` is whether `closeCh` has been closed and `closes`
   * how often `close(closeCh)` has been called (a second call panics in Go); `onClose`
   * whether a callback was supplied, and `onCloseRuns` how often it has run.
   */
  datatype Conn = Conn(
    peer: PeerId,
    room: RoomId,
    outbox: seq<Frame>,
    closed: bool,
    onClose: bool,
    onCloseRuns: nat,
    closes: nat)

  /** The outbox never holds more than the channel's capacity. */
  predicate Bounded(c: Conn)
  {
    |c.outbox| <= SendBuffer
  }

  /** Non-blocking send on the channel: append when there is room, otherwise drop the frame. */
  function Enqueue(c: Conn, data: Frame): (r: Conn)
    ensures r == c.(outbox := r.outbox)
    ensures |c.outbox| < SendBuffer ==> r.outbox == c.outbox + [data]
    ensures |c.outbox| >= SendBuffer ==> r.outbox == c.outbox
    ensures Bounded(c) ==> Bounded(r)
  {
    if |c.outbox| < SendBuffer then c.(outbox := c.outbox + [data]) else c
  }

  /** `n` successive enqueues of the same frame. */
  function EnqueueN(c: Conn, data: Frame, n: nat): (r: Conn)
    decreases n
    ensures r == c.(outbox := r.outbox)
    ensures |r.outbox| == if |c.outbox| >= SendBuffer then |c.outbox| else Min(|c.outbox| + n, SendBuffer)
    ensures r.outbox[..|c.outbox|] == c.outbox
    ensures forall i :: |c.outbox| <= i < |r.outbox| ==> r.outbox[i] == data
  {
    if n == 0 then c else EnqueueN(Enqueue(c, data), data, n - 1)
  }

  function Min(a: int, b: int): int
  {
    if a <= b then a else b
  }

  /** Enqueueing once is the one-copy case of enqueueing `n` times. */
  lemma EnqueueOnce(c: Conn, data: Frame)
    ensures EnqueueN(c, data, 1) == Enqueue(c, data)
    ensures EnqueueN(c, data, 0) == c
  {
  }
}

=== FILE: endtoend.dfy ===
/**
 * Both halves of a call together: what one browser sends (ui/src/components/Room.tsx),
 * what the relay does with it (internal/signaling/handlers.go), and what the browser
 * at the other end does with the frame it receives.
 */
module EndToEnd {
  import opened Basics
  import opened Json
  import opened Message
  import opened Connection
  import opened Hub
  import opened Lifecycle
  import opened Handlers
  import opened Client

  /** The envelope the relay sends on for a point-to-point message: stamped with the sender's room and peer id. */
  function Stamped(t: MsgType, c: Conn, to: PeerId, text: string): Envelope
  {
    Envelope(Tag(t), c.room, c.peer, to, Some(Str(text)), "", None, None, None)
  }

  /** What the receiving browser reads from a stamped envelope. */
  lemma StampedReads(t: MsgType, c: Conn, to: PeerId, text: string)
    requires c.peer != ""
    ensures var doc := Encode(Stamped(t, c, to, text));
      && Prop(doc, "type") == Some(Str(Tag(t)))
      && Prop(doc, "from") == Some(Str(c.peer))
      && Prop(doc, "payload") == Some(Str(text))
  {
    var env := Stamped(t, c, to, text);
    ForwardedReads(t, env, Str(text));
    assert Forwarded(t, env, Str(text)) == env;
  }

  /** The relay reads a browser message as its type, its `to` and its payload text, nothing else. */
  lemma DecodeOutgoing(typ: string, to: Option<Json>, payload: string)
    requires to.None? || to.value.Str?
    ensures Decode(Obj(OutgoingMembers(typ, to, payload)))
         == Success(Empty.(typ := typ, to := if to.Some? then to.value.s else "", payload := Some(Str(payload))))
  {
    KeyFieldOf(FType);
    KeyFieldOf(FTo);
    KeyFieldOf(FPayload);
    var ms := OutgoingMembers(typ, to, payload);
    var e1 := Empty.(typ := typ);
    var e2 := if to.Some? then e1.(to := to.value.s) else e1;
    assert DecodeMembers([ms[0]], Empty) == Success(e1);
    if to.Some? {
      assert ms == [ms[0]] + ([ms[1]] + [ms[2]]);
      DecodeAppend([ms[0]], [ms[1]] + [ms[2]], Empty);
      assert DecodeMembers([ms[1]], e1) == Success(e2);
      DecodeAppend([ms[1]], [ms[2]], e1);
      assert DecodeMembers([ms[2]], e2) == Success(e2.(payload := Some(Str(payload))));
    } else {
      assert ms == [ms[0]] + [ms[1]];
      DecodeAppend([ms[0]], [ms[1]], Empty);
    }
  }

  /**
   * A candidate gathered by one browser reaches every other member of its room, and
   * only them, as a `candidate` stamped with the sender's peer id and carrying the
   * candidate text unchanged.
   */
  lemma CandidateRelayed(s: Relay, id: ConnId, ice: Ice)
    requires Valid(s) && id in s.conns
    ensures var c := s.conns[id];
      HandleIncoming(s, id, Parsed(CandidateMessage(ice)))
        == Relay(s.rooms, Deliver(s.conns, Recipients(MembersOf(s.rooms, c.room), c.peer), Marshal(Stamped(MsgCandidate, c, "", ice))))
  {
    var c := s.conns[id];
    var data := Parsed(CandidateMessage(ice));
    assert Tag(MsgCandidate) == "candidate";
    DecodeOutgoing("candidate", None, ice);
    var env := Incoming(c, data).value;
    assert env == Empty.(typ := "candidate", roomId := c.room, from := c.peer, payload := Some(Str(ice)));
    RelayedDelivery(s, id, data, MsgCandidate);
    assert Forwarded(MsgCandidate, env, Str(ice)) == Stamped(MsgCandidate, c, "", ice);
  }

  /**
   * The receiving browser applies a relayed candidate at once when it already holds a
   * remote description, and loses it when it does not.
   */
  lemma CandidateApplied(cl: ClientState, c: Conn, ice: Ice, out: Outcomes)
    requires cl.pc.Some? && c.peer != "" && ice != ""
    ensures cl.pc.value.remote.Some? && out.candidateAdded ==>
              HandleMessage(cl, Encode(Stamped(MsgCandidate, c, "", ice)), out)
              == cl.(pc := Some(cl.pc.value.(candidates := cl.pc.value.candidates + [ice])))
    ensures cl.pc.value.remote.None? ==> HandleMessage(cl, Encode(Stamped(MsgCandidate, c, "", ice)), out) == cl
  {
    assert Tag(MsgCandidate) == "candidate";
    StampedReads(MsgCandidate, c, "", ice);
    if cl.pc.value.remote.Some? && out.candidateAdded {
      CandidateAppliedAtOnce(cl, Encode(Stamped(MsgCandidate, c, "", ice)), ice, out);
    } else if cl.pc.value.remote.None? {
      EarlyCandidateLost(cl, Encode(Stamped(MsgCandidate, c, "", ice)), out);
    }
  }

  /**
   * An offer or answer a browser addresses to a peer id reaches that peer's connection
   * in the sender's room and nothing else, stamped with the sender's peer id.
   */
  lemma AddressedRelayed(s: Relay, id: ConnId, t: MsgType, to: PeerId, sdp: Sdp)
    requires Valid(s) && id in s.conns && t in {MsgOffer, MsgAnswer} && to != ""
    ensures var c := s.conns[id];
      HandleIncoming(s, id, Parsed(Outgoing(Tag(t), Some(Str(to)), sdp)))
        == Relay(s.rooms, Deliver(s.conns, Targets(s, c, to), Marshal(Stamped(t, c, to, sdp))))
    ensures var c := s.conns[id];
      forall x :: x in Targets(s, c, to) <==> c.room in s.rooms && to in s.rooms[c.room] && x == s.rooms[c.room][to]
  {
    var c := s.conns[id];
    var data := Parsed(Outgoing(Tag(t), Some(Str(to)), sdp));
    DecodeOutgoing(Tag(t), Some(Str(to)), sdp);
    var env := Incoming(c, data).value;
    assert env == Empty.(typ := Tag(t), roomId := c.room, from := c.peer, to := to, payload := Some(Str(sdp)));
    RelayedDelivery(s, id, data, t);
    assert Forwarded(t, env, Str(sdp)) == Stamped(t, c, to, sdp);
  }

  /**
   * The addressee of a relayed offer adopts it as its remote description and sends
   * its answer back to the offerer's peer id.
   */
  lemma OfferAnsweredBack(cl: ClientState, c: Conn, to: PeerId, sdp: Sdp, out: Outcomes)
    requires cl.pc.Some? && c.peer != "" && sdp != ""
    requires out.remoteSet && out.created.Some? && out.localSet
    ensures var r := HandleMessage(cl, Encode(Stamped(MsgOffer, c, to, sdp)), out);
      && r.pc == Some(cl.pc.value.(remote := Some(sdp), local := out.created))
      && r.sent == cl.sent + [Outgoing("answer", Some(Str(c.peer)), out.created.value)]
  {
    StampedReads(MsgOffer, c, to, sdp);
    OfferAnswered(cl, Encode(Stamped(MsgOffer, c, to, sdp)), sdp, out);
  }

  /** The addressee of a relayed answer adopts it as its remote description. */
  lemma AnswerAdopted(cl: ClientState, c: Conn, to: PeerId, sdp: Sdp, out: Outcomes)
    requires cl.pc.Some? && c.peer != "" && sdp != "" && out.remoteSet
    ensures HandleMessage(cl, Encode(Stamped(MsgAnswer, c, to, sdp)), out)
         == cl.(pc := Some(cl.pc.value.(remote := Some(sdp))))
  {
    assert Tag(MsgAnswer) == "answer";
    StampedReads(MsgAnswer, c, to, sdp);
    AnswerSetsRemote(cl, Encode(Stamped(MsgAnswer, c, to, sdp)), sdp, out);
  }

  /**
   * A browser's `join` is acknowledged to it and announced as `peer_joined`, from its
   * own peer id, to every other member of its room.
   */
  lemma JoinAnnounced(s: Relay, id: ConnId)
    requires Valid(s) && id in s.conns
    ensures var c := s.conns[id];
      HandleIncoming(s, id, Parsed(JoinRequest)) == Relay(s.rooms,
        Deliver(Deliver(s.conns, {id}, Marshal(JoinAck(c.room, ListPeers(s.rooms, c.room)))),
                Recipients(MembersOf(s.rooms, c.room), c.peer), Marshal(PeerJoinedNotice(c.room, c.peer))))
  {
    var c := s.conns[id];
    KeyFieldOf(FType);
    assert JoinRequest.members == [Member("type", Str("join"))];
    assert Decode(JoinRequest) == Success(Empty.(typ := "join"));
    JoinReply(s, id, Parsed(JoinRequest));
  }

  /** The acknowledgement of a join and the reply to a ping reach the browser as types it ignores. */
  lemma ServerRepliesIgnored(cl: ClientState, room: RoomId, peers: Option<seq<PeerId>>, out: Outcomes)
    ensures HandleMessage(cl, Encode(JoinAck(room, peers)), out) == cl
    ensures HandleMessage(cl, Encode(PongReply(room)), out) == cl
  {
    EncodedProp(JoinAck(room, peers), FType);
    EncodedProp(PongReply(room), FType);
    OthersIgnored(cl, Encode(JoinAck(room, peers)), out);
    OthersIgnored(cl, Encode(PongReply(room)), out);
  }

  /** A member told of a newcomer sends it exactly one offer, addressed to the newcomer's peer id. */
  lemma PeerJoinedAnsweredWithOffer(cl: ClientState, room: RoomId, peer: PeerId, out: Outcomes)
    requires cl.pc.Some? && peer != "" && out.created.Some? && out.localSet
    ensures var r := HandleMessage(cl, Encode(PeerJoinedNotice(room, peer)), out);
      && r.pc == Some(cl.pc.value.(local := out.created))
      && r.sent == cl.sent + [Outgoing("offer", Some(Str(peer)), out.created.value)]
  {
    var e := PeerJoinedNotice(room, peer);
    EncodedProp(e, FType);
    EncodedProp(e, FFrom);
    PeerJoinedSendsOffer(cl, Encode(e), out);
  }

  /** A `message` frame whose second key is an upper-case variant of `type`. */
  const TwoFacedFrame: Json := Obj([Member("type", Str("user-left")), Member("TYPE", Str("message"))])

  /**
   * The relay and the browser read different types from one frame: the relay's
   * case-insensitive decoder takes the last `type`-like key, `message`, and forwards the
   * frame as it came to every other member; each of them reads the exact key `type`,
   * `user-left`, and drops its remote video, though nobody left.
   */
  lemma TypeReadTwoWays(s: Relay, id: ConnId, cl: ClientState, out: Outcomes)
    requires Valid(s) && id in s.conns && cl.pc.Some?
    ensures Incoming(s.conns[id], Parsed(TwoFacedFrame)).Success?
    ensures Incoming(s.conns[id], Parsed(TwoFacedFrame)).value.typ == Tag(MsgMessage)
    ensures var c := s.conns[id];
      HandleIncoming(s, id, Parsed(TwoFacedFrame))
        == Relay(s.rooms, Deliver(s.conns, Recipients(MembersOf(s.rooms, c.room), c.peer), Parsed(TwoFacedFrame)))
    ensures Prop(TwoFacedFrame, "type") == Some(Str("user-left"))
    ensures !HandleMessage(cl, TwoFacedFrame, out).remoteConnected
  {
    var c := s.conns[id];
    KeyFieldOf(FType);
    assert FoldEq("TYPE", "type");
    var ms := TwoFacedFrame.members;
    assert ms == [ms[0]] + [ms[1]];
    DecodeAppend([ms[0]], [ms[1]], Empty);
    assert Decode(TwoFacedFrame) == Success(Empty.(typ := "message"));
    MessageDelivery(s, id, Parsed(TwoFacedFrame));
    LastAppend([ms[0]], [ms[1]], "type");
  }
}

=== FILE: handlers.dfy ===
/**
 * `handleIncoming` (internal/signaling/handlers.go): one inbound frame from a
 * connection, decoded, normalised and routed, as one atomic step of the relay.
 */
module Handlers {
  import opened Basics
  import opened Json
  import opened Message
  import opened Connection
  import opened Hub
  import opened Lifecycle

  /** The bytes `mustMarshal` produces for an envelope. */
  function Marshal(env: Envelope): Frame
  {
    Parsed(Encode(env))
  }

  /** Every room's entries point at existing connections. */
  ghost predicate AllResolve(s: Relay)
  {
    forall rid :: rid in s.rooms ==> Resolves(s.rooms[rid], s.conns)
  }

  /**
   * Default `from` to the connection's peer and `roomId` to its room; the legacy
   * `room` field is used only if the room id is still empty after that.
   */
  function Normalize(env: Envelope, peer: PeerId, room: RoomId): (r: Envelope)
    ensures r.from == if env.from == "" then peer else env.from
    ensures r.roomId == if env.roomId != "" then env.roomId else if room != "" then room else env.room
    ensures r == env.(from := r.from, roomId := r.roomId)
  {
    var e1 := if env.from == "" then env.(from := peer) else env;
    var e2 := if e1.roomId == "" then e1.(roomId := room) else e1;
    if e2.room != "" && e2.roomId == "" then e2.(roomId := e2.room) else e2
  }

  /** The legacy field that carries the payload of a point-to-point type. */
  function LegacyPayload(env: Envelope, t: MsgType): Option<Json>
  {
    match t
    case MsgOffer => env.offer
    case MsgAnswer => env.answer
    case _ => env.candidate
  }

  /** `payload` when present, else the legacy field. */
  function ChoosePayload(env: Envelope, t: MsgType): (r: Option<Json>)
    ensures r.None? <==> env.payload.None? && LegacyPayload(env, t).None?
    ensures env.payload.Some? ==> r == env.payload
    ensures env.payload.None? ==> r == LegacyPayload(env, t)
  {
    if env.payload.Some? then env.payload else LegacyPayload(env, t)
  }

  /** The envelope the relay sends on for an offer, answer or candidate. */
  function Forwarded(t: MsgType, env: Envelope, data: Json): Envelope
  {
    Envelope(Tag(t), env.roomId, env.from, env.to, Some(data), "", None, None, None)
  }

  /** The peer list carried by the join acknowledgement; a nil list encodes as null. */
  function PeersJson(peers: Option<seq<PeerId>>): Json
  {
    match peers
    case None => Obj([Member("peers", Null)])
    case Some(ids) => Obj([Member("peers", Arr(seq(|ids|, i requires 0 <= i < |ids| => Str(ids[i]))))])
  }

  function JoinAck(room: RoomId, peers: Option<seq<PeerId>>): Envelope
  {
    Envelope(Tag(MsgJoin), room, "server", "", Some(PeersJson(peers)), "", None, None, None)
  }

  function PeerJoinedNotice(room: RoomId, peer: PeerId): Envelope
  {
    Envelope(PeerJoined, room, peer, "", Some(Obj([])), "", None, None, None)
  }

  function PongReply(room: RoomId): Envelope
  {
    Envelope(Tag(MsgPong), room, "server", "", None, "", None, None, None)
  }

  /** To the addressed peer when `to` is set, otherwise to every other member of the sender's room. */
  function Route(s: Relay, c: Conn, to: PeerId, out: Frame): (r: Conns)
    requires AllResolve(s)
    ensures r.Keys == s.conns.Keys
  {
    if to != "" then SendTo(s.rooms, s.conns, c.room, to, out)
    else Broadcast(s.rooms, s.conns, c.room, out, c.peer)
  }

  /** Offer, answer and candidate: forward the chosen payload, or nothing when there is none. */
  function Relayed(s: Relay, c: Conn, env: Envelope, t: MsgType): (r: Relay)
    requires AllResolve(s)
    ensures r.rooms == s.rooms && r.conns.Keys == s.conns.Keys
  {
    match ChoosePayload(env, t)
    case None => s
    case Some(data) => s.(conns := Route(s, c, env.to, Marshal(Forwarded(t, env, data))))
  }

  /** The frame's decoded and normalised envelope, as `handleIncoming` switches on it. */
  function Incoming(c: Conn, data: Frame): Result<Envelope, DecodeError>
  {
    match DecodeFrame(data)
    case Failure(e) => Failure(e)
    case Success(env) => Success(Normalize(env, c.peer, c.room))
  }

  /** One inbound frame on connection `id`. */
  ghost function HandleIncoming(s: Relay, id: ConnId, data: Frame): (r: Relay)
    requires id in s.conns && AllResolve(s)
    ensures r.conns.Keys == s.conns.Keys
    ensures Incoming(s.conns[id], data).Failure? ==> r == s
    ensures r.rooms != s.rooms ==> Incoming(s.conns[id], data).value.typ == Tag(MsgLeave)
  {
    var c := s.conns[id];
    match Incoming(c, data)
    case Failure(_) => s
    case Success(env) =>
      match Classify(env.typ)
      case Some(MsgJoin) =>
        var ack := Marshal(JoinAck(c.room, ListPeers(s.rooms, c.room)));
        var conns1 := Deliver(s.conns, {id}, ack);
        Relay(s.rooms, Broadcast(s.rooms, conns1, c.room, Marshal(PeerJoinedNotice(c.room, c.peer)), c.peer))
      case Some(MsgLeave) => Cleanup(s, id)
      case Some(MsgOffer) => Relayed(s, c, env, MsgOffer)
      case Some(MsgAnswer) => Relayed(s, c, env, MsgAnswer)
      case Some(MsgCandidate) => Relayed(s, c, env, MsgCandidate)
      case Some(MsgMessage) => s.(conns := Route(s, c, env.to, data))
      case Some(MsgPing) => s.(conns := Deliver(s.conns, {id}, Marshal(PongReply(c.room))))
      case Some(MsgPong) => s
      case None => s
  }

  // ---------------------------------------------------------------- routing

  /** The connections a routed frame reaches: the addressed member only, or every other member. */
  function Targets(s: Relay, c: Conn, to: PeerId): set<ConnId>
  {
    var room := MembersOf(s.rooms, c.room);
    if to != "" then (if to in room then {room[to]} else {}) else Recipients(room, c.peer)
  }

  lemma DeliverNothing(conns: Conns, data: Frame)
    ensures Deliver(conns, {}, data) == conns
  {
  }

  /** Broadcasting in the sender's room reaches every other member once, and nobody when the room is gone. */
  lemma BroadcastInRoom(s: Relay, conns: Conns, c: Conn, out: Frame)
    requires Filed(s) && conns.Keys == s.conns.Keys
    ensures c.room in s.rooms ==> Resolves(s.rooms[c.room], conns)
    ensures Broadcast(s.rooms, conns, c.room, out, c.peer) == Deliver(conns, Recipients(MembersOf(s.rooms, c.room), c.peer), out)
  {
    if c.room in s.rooms {
      FiledRoomsInjective(s, c.room);
      BroadcastOnce(s.rooms, conns, c.room, out, c.peer);
    } else {
      DeliverNothing(conns, out);
    }
  }

  /** Routing is delivery to `Targets`: to the addressee only when `to` is set, otherwise to all other members. */
  lemma RouteDelivers(s: Relay, c: Conn, to: PeerId, out: Frame)
    requires Filed(s)
    ensures AllResolve(s)
    ensures Route(s, c, to, out) == Deliver(s.conns, Targets(s, c, to), out)
  {
    if to == "" {
      BroadcastInRoom(s, s.conns, c, out);
    } else if c.room !in s.rooms || to !in s.rooms[c.room] {
      DeliverNothing(s.conns, out);
    }
  }

  /** Under the relay invariant, the other members a broadcast reaches are exactly the registered room mates with another peer id. */
  lemma RecipientsAreRoomMates(s: Relay, room: RoomId, peer: PeerId, c: ConnId)
    requires Filed(s)
    ensures c in Recipients(MembersOf(s.rooms, room), peer) <==>
      Registered(s, c) && s.conns[c].room == room && Receives(s.conns[c].peer, peer)
  {
    if Registered(s, c) && s.conns[c].room == room && Receives(s.conns[c].peer, peer) {
      var p := s.conns[c].peer;
      assert p in MembersOf(s.rooms, room).Keys && MembersOf(s.rooms, room)[p] == c;
    }
  }

  // ---------------------------------------------------------------- per-type behaviour

  /**
   * `join`: the sender gets one acknowledgement from "server" listing the room's
   * peers, and every other member gets one `peer_joined` from the sender.
   */
  lemma JoinReply(s: Relay, id: ConnId, data: Frame)
    requires Valid(s) && id in s.conns
    requires Incoming(s.conns[id], data).Success? && Incoming(s.conns[id], data).value.typ == Tag(MsgJoin)
    ensures var c := s.conns[id];
      var others := Recipients(MembersOf(s.rooms, c.room), c.peer);
      && id !in others
      && HandleIncoming(s, id, data) == Relay(s.rooms,
           Deliver(Deliver(s.conns, {id}, Marshal(JoinAck(c.room, ListPeers(s.rooms, c.room)))),
                   others, Marshal(PeerJoinedNotice(c.room, c.peer))))
  {
    var c := s.conns[id];
    var conns1 := Deliver(s.conns, {id}, Marshal(JoinAck(c.room, ListPeers(s.rooms, c.room))));
    BroadcastInRoom(s, conns1, c, Marshal(PeerJoinedNotice(c.room, c.peer)));
    RecipientsAreRoomMates(s, c.room, c.peer, id);
  }

  /** The acknowledgement of a registered peer lists every peer of its room once, itself included. */
  lemma JoinAckListsRoom(s: Relay, id: ConnId)
    requires Registered(s, id)
    ensures var c := s.conns[id];
      && ListPeers(s.rooms, c.room).Some?
      && c.peer in ListPeers(s.rooms, c.room).value
      && forall p :: p in ListPeers(s.rooms, c.room).value <==> p in s.rooms[c.room]
  {
  }

  /**
   * `offer`, `answer`, `candidate`: with a payload (or legacy field) the relay sends an
   * envelope of the same type, from, to and payload to the routing targets; without
   * one it sends nothing.
   */
  lemma RelayedDelivery(s: Relay, id: ConnId, data: Frame, t: MsgType)
    requires Valid(s) && id in s.conns && t in {MsgOffer, MsgAnswer, MsgCandidate}
    requires Incoming(s.conns[id], data).Success? && Incoming(s.conns[id], data).value.typ == Tag(t)
    ensures var c := s.conns[id];
      var env := Incoming(c, data).value;
      && (ChoosePayload(env, t).None? ==> HandleIncoming(s, id, data) == s)
      && (ChoosePayload(env, t).Some? ==>
            HandleIncoming(s, id, data) ==
              Relay(s.rooms, Deliver(s.conns, Targets(s, c, env.to), Marshal(Forwarded(t, env, ChoosePayload(env, t).value)))))
  {
    var c := s.conns[id];
    var env := Incoming(c, data).value;
    assert Classify(env.typ) == Some(t);
    assert HandleIncoming(s, id, data) == Relayed(s, c, env, t);
    if ChoosePayload(env, t).Some? {
      RouteDelivers(s, c, env.to, Marshal(Forwarded(t, env, ChoosePayload(env, t).value)));
    }
  }

  /** `message`: the original frame itself goes to the routing targets. */
  lemma MessageDelivery(s: Relay, id: ConnId, data: Frame)
    requires Valid(s) && id in s.conns
    requires Incoming(s.conns[id], data).Success? && Incoming(s.conns[id], data).value.typ == Tag(MsgMessage)
    ensures HandleIncoming(s, id, data)
         == Relay(s.rooms, Deliver(s.conns, Targets(s, s.conns[id], Incoming(s.conns[id], data).value.to), data))
  {
    RouteDelivers(s, s.conns[id], Incoming(s.conns[id], data).value.to, data);
  }

  /** `ping`: exactly one `pong` from "server", to the sender only. */
  lemma PingReply(s: Relay, id: ConnId, data: Frame)
    requires Valid(s) && id in s.conns
    requires Incoming(s.conns[id], data).Success? && Incoming(s.conns[id], data).value.typ == Tag(MsgPing)
    ensures HandleIncoming(s, id, data) == Relay(s.rooms, Deliver(s.conns, {id}, Marshal(PongReply(s.conns[id].room))))
  {
  }

  /** `leave` is the connection's cleanup. */
  lemma LeaveCleansUp(s: Relay, id: ConnId, data: Frame)
    requires Valid(s) && id in s.conns
    requires Incoming(s.conns[id], data).Success? && Incoming(s.conns[id], data).value.typ == Tag(MsgLeave)
    ensures HandleIncoming(s, id, data) == Cleanup(s, id)
  {
  }

  /** Any other type — including a client-sent `peer_joined` or `pong` — changes nothing. */
  lemma OthersDropped(s: Relay, id: ConnId, data: Frame)
    requires Valid(s) && id in s.conns
    requires Incoming(s.conns[id], data).Success?
    requires var t := Incoming(s.conns[id], data).value.typ;
      t == PeerJoined || t == Tag(MsgPong) || Classify(t).None?
    ensures HandleIncoming(s, id, data) == s
  {
    TagsDistinct();
  }

  // ---------------------------------------------------------------- invariants

  /** Delivery only grows outboxes within their bound, so the relay invariant survives it. */
  lemma DeliverKeepsValid(s: Relay, targets: set<ConnId>, data: Frame)
    requires Valid(s)
    ensures Valid(Relay(s.rooms, Deliver(s.conns, targets, data)))
  {
    var r := Relay(s.rooms, Deliver(s.conns, targets, data));
    assert forall c :: c in s.conns ==> r.conns[c].peer == s.conns[c].peer && r.conns[c].room == s.conns[c].room;
  }

  /** Every frame handled on a connection keeps the relay invariant. */
  lemma HandlePreservesValid(s: Relay, id: ConnId, data: Frame)
    requires Valid(s) && id in s.conns
    ensures Valid(HandleIncoming(s, id, data))
  {
    var c := s.conns[id];
    if Incoming(c, data).Success? {
      var env := Incoming(c, data).value;
      match Classify(env.typ)
      case Some(MsgJoin) =>
        JoinReply(s, id, data);
        var ack := Marshal(JoinAck(c.room, ListPeers(s.rooms, c.room)));
        DeliverKeepsValid(s, {id}, ack);
        DeliverKeepsValid(Relay(s.rooms, Deliver(s.conns, {id}, ack)),
                          Recipients(MembersOf(s.rooms, c.room), c.peer), Marshal(PeerJoinedNotice(c.room, c.peer)));
      case Some(MsgLeave) => CleanupPreservesValid(s, id);
      case Some(MsgOffer) =>
        RelayedDelivery(s, id, data, MsgOffer);
        if ChoosePayload(env, MsgOffer).Some? {
          DeliverKeepsValid(s, Targets(s, c, env.to), Marshal(Forwarded(MsgOffer, env, ChoosePayload(env, MsgOffer).value)));
        }
      case Some(MsgAnswer) =>
        RelayedDelivery(s, id, data, MsgAnswer);
        if ChoosePayload(env, MsgAnswer).Some? {
          DeliverKeepsValid(s, Targets(s, c, env.to), Marshal(Forwarded(MsgAnswer, env, ChoosePayload(env, MsgAnswer).value)));
        }
      case Some(MsgCandidate) =>
        RelayedDelivery(s, id, data, MsgCandidate);
        if ChoosePayload(env, MsgCandidate).Some? {
          DeliverKeepsValid(s, Targets(s, c, env.to), Marshal(Forwarded(MsgCandidate, env, ChoosePayload(env, MsgCandidate).value)));
        }
      case Some(MsgMessage) =>
        MessageDelivery(s, id, data);
        DeliverKeepsValid(s, Targets(s, c, env.to), data);
      case Some(MsgPing) => DeliverKeepsValid(s, {id}, Marshal(PongReply(c.room)));
      case Some(MsgPong) =>
      case None =>
    }
  }

  /** Everything routed from a connection lands on connections of its own room. */
  lemma TargetsInRoom(s: Relay, c: Conn, to: PeerId)
    requires Filed(s)
    ensures forall t :: t in Targets(s, c, to) ==> t in s.conns && s.conns[t].room == c.room
  {
    forall t | t in Targets(s, c, to)
      ensures t in s.conns && s.conns[t].room == c.room
    {
      if to == "" {
        RecipientsAreRoomMates(s, c.room, c.peer, t);
      }
    }
  }

  /** Only connections of `room` may have an outbox that differs between `conns` and `r`. */
  ghost predicate ChangesOnlyIn(conns: Conns, r: Conns, room: RoomId)
  {
    forall c :: c in conns && c in r && r[c].outbox != conns[c].outbox ==> conns[c].room == room
  }

  lemma DeliverChangesOnlyIn(conns: Conns, targets: set<ConnId>, data: Frame, room: RoomId)
    requires forall t :: t in targets && t in conns ==> conns[t].room == room
    ensures ChangesOnlyIn(conns, Deliver(conns, targets, data), room)
  {
  }

  /**
   * Routing uses the connection's own room, never the envelope's `roomId`: every
   * outbox a frame adds to belongs to the sender or to a connection of the sender's room.
   */
  lemma NoCrossRoomDelivery(s: Relay, id: ConnId, data: Frame)
    requires Valid(s) && id in s.conns
    ensures forall c :: c in s.conns && HandleIncoming(s, id, data).conns[c].outbox != s.conns[c].outbox
                ==> s.conns[c].room == s.conns[id].room
  {
    var c := s.conns[id];
    if Incoming(c, data).Success? {
      var typ := Incoming(c, data).value.typ;
      if typ == Tag(MsgJoin) {
        JoinChangesOnlyIn(s, id, data);
      } else if typ == Tag(MsgOffer) {
        RelayedChangesOnlyIn(s, id, data, MsgOffer);
      } else if typ == Tag(MsgAnswer) {
        RelayedChangesOnlyIn(s, id, data, MsgAnswer);
      } else if typ == Tag(MsgCandidate) {
        RelayedChangesOnlyIn(s, id, data, MsgCandidate);
      } else if typ == Tag(MsgMessage) {
        MessageChangesOnlyIn(s, id, data);
      } else if typ == Tag(MsgPing) {
        PingReply(s, id, data);
        DeliverChangesOnlyIn(s.conns, {id}, Marshal(PongReply(c.room)), c.room);
      } else if typ == Tag(MsgLeave) {
        LeaveCleansUp(s, id, data);
        CleanupEffects(s, id);
      } else {
        assert Classify(typ).None? || Classify(typ) == Some(MsgPong);
        OthersDropped(s, id, data);
      }
    }
    assert ChangesOnlyIn(s.conns, HandleIncoming(s, id, data).conns, c.room);
  }

  /** Two steps that each touch only one room's outboxes, and keep every room, together touch only that room's. */
  lemma ChangesOnlyInTrans(a: Conns, b: Conns, c: Conns, room: RoomId)
    requires a.Keys == b.Keys && forall x :: x in a ==> b[x].room == a[x].room
    requires ChangesOnlyIn(a, b, room) && ChangesOnlyIn(b, c, room)
    ensures ChangesOnlyIn(a, c, room)
  {
  }

  lemma JoinChangesOnlyIn(s: Relay, id: ConnId, data: Frame)
    requires Valid(s) && id in s.conns
    requires Incoming(s.conns[id], data).Success? && Incoming(s.conns[id], data).value.typ == Tag(MsgJoin)
    ensures ChangesOnlyIn(s.conns, HandleIncoming(s, id, data).conns, s.conns[id].room)
  {
    var c := s.conns[id];
    JoinReply(s, id, data);
    var ack := Marshal(JoinAck(c.room, ListPeers(s.rooms, c.room)));
    var conns1 := Deliver(s.conns, {id}, ack);
    var others := Targets(s, c, "");
    TargetsInRoom(s, c, "");
    DeliverChangesOnlyIn(s.conns, {id}, ack, c.room);
    assert forall x :: x in s.conns ==> conns1[x].room == s.conns[x].room;
    DeliverChangesOnlyIn(conns1, others, Marshal(PeerJoinedNotice(c.room, c.peer)), c.room);
    ChangesOnlyInTrans(s.conns, conns1, HandleIncoming(s, id, data).conns, c.room);
  }

  lemma MessageChangesOnlyIn(s: Relay, id: ConnId, data: Frame)
    requires Valid(s) && id in s.conns
    requires Incoming(s.conns[id], data).Success? && Incoming(s.conns[id], data).value.typ == Tag(MsgMessage)
    ensures ChangesOnlyIn(s.conns, HandleIncoming(s, id, data).conns, s.conns[id].room)
  {
    var c := s.conns[id];
    var to := Incoming(c, data).value.to;
    MessageDelivery(s, id, data);
    TargetsInRoom(s, c, to);
    DeliverChangesOnlyIn(s.conns, Targets(s, c, to), data, c.room);
  }

  lemma RelayedChangesOnlyIn(s: Relay, id: ConnId, data: Frame, t: MsgType)
    requires Valid(s) && id in s.conns && t in {MsgOffer, MsgAnswer, MsgCandidate}
    requires Incoming(s.conns[id], data).Success? && Incoming(s.conns[id], data).value.typ == Tag(t)
    ensures ChangesOnlyIn(s.conns, HandleIncoming(s, id, data).conns, s.conns[id].room)
  {
    var c := s.conns[id];
    var env := Incoming(c, data).value;
    RelayedDelivery(s, id, data, t);
    TargetsInRoom(s, c, env.to);
    if ChoosePayload(env, t).Some? {
      DeliverChangesOnlyIn(s.conns, Targets(s, c, env.to), Marshal(Forwarded(t, env, ChoosePayload(env, t).value)), c.room);
    }
  }

  /**
   * What the receiving browser reads from a forwarded envelope: the type, the `from`
   * after defaulting (the connection's peer id unless the client wrote its own), the `to` as sent (absent when empty) and the payload.
   */
  lemma ForwardedReads(t: MsgType, env: Envelope, data: Json)
    requires env.from != ""
    ensures var doc := Encode(Forwarded(t, env, data));
      && Prop(doc, "type") == Some(Str(Tag(t)))
      && Prop(doc, "from") == Some(Str(env.from))
      && Prop(doc, "to") == (if env.to == "" then None else Some(Str(env.to)))
      && Prop(doc, "payload") == Some(data)
  {
    var e := Forwarded(t, env, data);
    EncodedProp(e, FType);
    EncodedProp(e, FFrom);
    EncodedProp(e, FTo);
    EncodedProp(e, FPayload);
  }
}

=== FILE: hub.dfy ===
/**
 * The room registry (internal/signaling/hub.go): a map from room id to a map from
 * peer id to connection. Each operation is one atomic step; the hub and room
 * mutexes only serve to make them so and are not modelled.
 */
module Hub {
  import opened Basics
  import opened Json
  import opened Connection

  type Room = map<PeerId, ConnId>
  type Rooms = map<RoomId, Room>
  type Conns = map<ConnId, Conn>

  /** Every room other than `roomId` is present in both registries with the same members. */
  ghost predicate OthersUnchanged(h: Rooms, r: Rooms, roomId: RoomId)
  {
    forall id :: id != roomId ==> (id in r <==> id in h) && (id in r ==> r[id] == h[id])
  }

  /** Every room in the registry has at least one peer. */
  ghost predicate NoEmptyRooms(h: Rooms)
  {
    forall id :: id in h ==> h[id] != map[]
  }

  /** The members of `roomId`, or none when it does not exist. */
  function MembersOf(h: Rooms, roomId: RoomId): Room
  {
    if roomId in h then h[roomId] else map[]
  }

  /** The existing room, unchanged, or a fresh empty room inserted under that id. */
  function GetOrCreateRoom(h: Rooms, roomId: RoomId): (r: (Rooms, Room))
    ensures roomId in r.0 && r.1 == r.0[roomId]
    ensures roomId in h ==> r.0 == h
    ensures roomId !in h ==> r.1 == map[] && r.0.Keys == h.Keys + {roomId}
    ensures OthersUnchanged(h, r.0, roomId)
  {
    if roomId in h then (h, h[roomId]) else (h[roomId := map[]], map[])
  }

  /** Drop the room when it exists and has no peers left. */
  function RemoveRoomIfEmpty(h: Rooms, roomId: RoomId): (r: Rooms)
    ensures roomId in r <==> roomId in h && h[roomId] != map[]
    ensures roomId in r ==> r[roomId] == h[roomId]
    ensures OthersUnchanged(h, r, roomId)
  {
    if roomId in h && |h[roomId]| == 0 then h - {roomId} else h
  }

  /** Register `c` under `peerId`, replacing any connection already there (last writer wins). */
  function Join(h: Rooms, roomId: RoomId, peerId: PeerId, c: ConnId): (r: Rooms)
    ensures roomId in r && peerId in r[roomId] && r[roomId][peerId] == c
    ensures r[roomId].Keys == MembersOf(h, roomId).Keys + {peerId}
    ensures forall p :: p in r[roomId] && p != peerId ==> r[roomId][p] == h[roomId][p]
    ensures OthersUnchanged(h, r, roomId)
  {
    var (h', room) := GetOrCreateRoom(h, roomId);
    h'[roomId := room[peerId := c]]
  }

  /** Remove `peerId` from the room, and the room itself once empty; an unknown room is left alone. */
  function Leave(h: Rooms, roomId: RoomId, peerId: PeerId): (r: Rooms)
    ensures roomId !in h ==> r == h
    ensures roomId in h ==> (roomId in r <==> h[roomId].Keys - {peerId} != {})
    ensures roomId in r ==> r[roomId] == h[roomId] - {peerId}
    ensures OthersUnchanged(h, r, roomId)
  {
    if roomId !in h then h
    else
      var room := h[roomId] - {peerId};
      assert room.Keys == h[roomId].Keys - {peerId};
      assert |room| == 0 <==> room.Keys == {};
      RemoveRoomIfEmpty(h[roomId := room], roomId)
  }

  /** No operation leaves an empty room behind. */
  lemma JoinLeaveKeepRoomsNonEmpty(h: Rooms, roomId: RoomId, peerId: PeerId, c: ConnId)
    requires NoEmptyRooms(h)
    ensures NoEmptyRooms(Join(h, roomId, peerId, c))
    ensures NoEmptyRooms(Leave(h, roomId, peerId))
  {
    var j := Join(h, roomId, peerId, c);
    assert peerId in j[roomId];
  }

  // ---------------------------------------------------------------- delivery

  /** Every connection a room refers to exists (a Go pointer always points somewhere). */
  ghost predicate Resolves(room: Room, conns: Conns)
  {
    forall p :: p in room ==> room[p] in conns
  }

  /** Whether a broadcast that excludes `exclude` reaches peer `p`; an empty exclusion reaches all. */
  predicate Receives(p: PeerId, exclude: PeerId)
  {
    !(exclude != "" && p == exclude)
  }

  /** How many copies of a broadcast connection `c` receives: one per peer id it is registered under. */
  function Copies(room: Room, exclude: PeerId, c: ConnId): nat
  {
    |set p | p in room.Keys && Receives(p, exclude) && room[p] == c|
  }

  /** The connections a broadcast reaches. */
  function Recipients(room: Room, exclude: PeerId): set<ConnId>
  {
    set p | p in room.Keys && Receives(p, exclude) :: room[p]
  }

  /** Reference delivery: every target gets the frame enqueued once, every other connection is untouched. */
  function Deliver(conns: Conns, targets: set<ConnId>, data: Frame): (r: Conns)
    ensures r.Keys == conns.Keys
    ensures forall c :: c in conns && Bounded(conns[c]) ==> Bounded(r[c])
  {
    map c | c in conns :: if c in targets then Enqueue(conns[c], data) else conns[c]
  }

  /** A room whose peers all sit on different connections. */
  ghost predicate Injective(room: Room)
  {
    forall p, q :: p in room && q in room && p != q ==> room[p] != room[q]
  }

  /** Each connection receives as many copies as the room counts for it. */
  function Spread(room: Room, conns: Conns, data: Frame, exclude: PeerId): (r: Conns)
    ensures r.Keys == conns.Keys
    ensures forall c :: c in conns ==> r[c] == EnqueueN(conns[c], data, Copies(room, exclude, c))
  {
    map c | c in conns :: EnqueueN(conns[c], data, Copies(room, exclude, c))
  }

  /** Enqueue the frame on every member's connection except the excluded peer's; nothing for an unknown room. */
  function Broadcast(h: Rooms, conns: Conns, roomId: RoomId, data: Frame, exclude: PeerId): (r: Conns)
    requires roomId in h ==> Resolves(h[roomId], conns)
    ensures r.Keys == conns.Keys
    ensures roomId !in h ==> r == conns
    ensures forall c :: c in conns ==> r[c] == conns[c].(outbox := r[c].outbox)
    ensures forall c :: c in conns ==> |conns[c].outbox| <= |r[c].outbox| && r[c].outbox[..|conns[c].outbox|] == conns[c].outbox
    ensures forall c :: c in conns && r[c] != conns[c] ==> c in Recipients(MembersOf(h, roomId), exclude)
    ensures forall c :: c in conns && Bounded(conns[c]) ==> Bounded(r[c])
  {
    if roomId !in h then conns
    else
      var r := Spread(h[roomId], conns, data, exclude);
      forall c | c in conns
        ensures r[c] != conns[c] ==> c in Recipients(h[roomId], exclude)
      {
        CopiesOnlyRecipients(h[roomId], exclude, c);
      }
      r
  }

  /** Only a recipient connection is counted at all. */
  lemma CopiesOnlyRecipients(room: Room, exclude: PeerId, c: ConnId)
    ensures Copies(room, exclude, c) != 0 ==> c in Recipients(room, exclude)
  {
    var ps := set p | p in room.Keys && Receives(p, exclude) && room[p] == c;
    if |ps| != 0 {
      var p :| p in ps;
    }
  }

  /** When peers sit on distinct connections, each recipient connection is counted once and no other at all. */
  lemma CopiesOfInjective(room: Room, exclude: PeerId, c: ConnId)
    requires Injective(room)
    ensures Copies(room, exclude, c) == if c in Recipients(room, exclude) then 1 else 0
  {
    var ps := set p | p in room.Keys && Receives(p, exclude) && room[p] == c;
    if c in Recipients(room, exclude) {
      var p :| p in room.Keys && Receives(p, exclude) && room[p] == c;
      assert ps == {p};
    } else {
      assert ps == {};
    }
  }

  /** When peers sit on distinct connections, a broadcast reaches every recipient exactly once. */
  lemma BroadcastOnce(h: Rooms, conns: Conns, roomId: RoomId, data: Frame, exclude: PeerId)
    requires roomId in h && Resolves(h[roomId], conns) && Injective(h[roomId])
    ensures Broadcast(h, conns, roomId, data, exclude) == Deliver(conns, Recipients(h[roomId], exclude), data)
  {
    var r := Broadcast(h, conns, roomId, data, exclude);
    var d := Deliver(conns, Recipients(h[roomId], exclude), data);
    forall c | c in conns
      ensures r[c] == d[c]
    {
      CopiesOfInjective(h[roomId], exclude, c);
      EnqueueOnce(conns[c], data);
    }
  }

  /** Enqueue on the target's connection only; silently nothing when the room or the target is absent. */
  function SendTo(h: Rooms, conns: Conns, roomId: RoomId, target: PeerId, data: Frame): (r: Conns)
    requires roomId in h ==> Resolves(h[roomId], conns)
    ensures r == if target in MembersOf(h, roomId) then Deliver(conns, {h[roomId][target]}, data) else conns
  {
    if roomId !in h then conns
    else if target in h[roomId] then
      var c := h[roomId][target];
      conns[c := Enqueue(conns[c], data)]
    else conns
  }

  // ---------------------------------------------------------------- listing

  /**
   * Some enumeration of a set of peer ids. Go ranges over a map in an unspecified
   * order; the model fixes one without saying which, and nothing depends on it.
   */
  ghost function Enumerate(s: set<PeerId>): (r: seq<PeerId>)
    ensures |r| == |s|
    ensures forall p :: p in r <==> p in s
    ensures forall i, j :: 0 <= i < j < |r| ==> r[i] != r[j]
    decreases s
  {
    if s == {} then []
    else
      var p :| p in s;
      [p] + Enumerate(s - {p})
  }

  /** The room's peer ids, each once, or nil for an unknown room. */
  ghost function ListPeers(h: Rooms, roomId: RoomId): (r: Option<seq<PeerId>>)
    ensures r.None? <==> roomId !in h
    ensures r.Some? ==> forall p :: p in r.value <==> p in h[roomId]
    ensures r.Some? ==> forall i, j :: 0 <= i < j < |r.value| ==> r.value[i] != r.value[j]
  {
    if roomId !in h then None else Some(Enumerate(h[roomId].Keys))
  }
}

=== FILE: json.dfy ===
/**
 * JSON documents as both sides of the wire see them once the text is parsed.
 * The text level (whitespace, escaping, number syntax) is abstracted away:
 * a frame is the document its bytes spell, or no document at all.
 */
module Json {
  import opened Basics

  /** A parsed JSON value. Numbers are kept as integers: the signalling code never interprets one. */
  datatype Json =
    | Null
    | Bool(b: bool)
    | Num(n: int)
    | Str(s: string)
    | Arr(items: seq<Json>)
    | Obj(members: seq<Member>)

  /** One `"key": value` pair of an object, in the order written. */
  datatype Member = Member(key: string, value: Json)

  /** A websocket text frame: the document its bytes spell, or `Unparsable` when they are not JSON. */
  datatype Frame = Parsed(doc: Json) | Unparsable

  /** ASCII case folding, as used when Go matches an object key against a struct field tag. */
  function Lower(c: char): char
  {
    if 'A' <= c <= 'Z' then (c as int - 'A' as int + 'a' as int) as char else c
  }

  /** Two keys that are equal up to ASCII case. */
  predicate FoldEq(a: string, b: string)
  {
    |a| == |b| && forall i :: 0 <= i < |a| ==> Lower(a[i]) == Lower(b[i])
  }

  /** The value of the last member with exactly this key: JavaScript's property read after JSON.parse. */
  function Last(ms: seq<Member>, key: string): (r: Option<Json>)
    ensures r.None? <==> forall i :: 0 <= i < |ms| ==> ms[i].key != key
    ensures r.Some? ==> Member(key, r.value) in ms
  {
    if ms == [] then None
    else
      match Last(ms[1..], key)
      case Some(v) => Some(v)
      case None => if ms[0].key == key then Some(ms[0].value) else None
  }

  /** The last occurrence of a key is found in the later part of a split when it occurs there. */
  lemma {:induction false} LastAppend(a: seq<Member>, b: seq<Member>, key: string)
    ensures Last(a + b, key) == if Last(b, key).Some? then Last(b, key) else Last(a, key)
  {
    if a == [] {
      assert a + b == b;
    } else {
      assert (a + b)[0] == a[0];
      assert (a + b)[1..] == a[1..] + b;
      LastAppend(a[1..], b, key);
    }
  }

  /** `message[key]` on a parsed message; undefined unless the message is an object holding that key. */
  function Prop(j: Json, key: string): Option<Json>
  {
    if j.Obj? then Last(j.members, key) else None
  }
}

=== FILE: lifecycle.dfy ===
/**
 * The relay as a whole: the room registry plus every connection object, and the
 * two steps that add and retire a connection — admission by the websocket
 * endpoint (cmd/server/main.go) and `cleanup` (internal/signaling/connection.go).
 */
module Lifecycle {
  import opened Basics
  import opened Json
  import opened Connection
  import opened Hub

  datatype Relay = Relay(rooms: Rooms, conns: Conns)

  /** Every registry entry points at an existing connection filed under that connection's own room and peer id. */
  ghost predicate Filed(s: Relay)
  {
    forall rid, p :: rid in s.rooms && p in s.rooms[rid] ==>
      && s.rooms[rid][p] in s.conns
      && s.conns[s.rooms[rid][p]].peer == p
      && s.conns[s.rooms[rid][p]].room == rid
  }

  /** `closeCh` has been closed exactly when the connection is marked closed, so never twice. */
  predicate ClosedOnce(c: Conn)
  {
    c.closes == if c.closed then 1 else 0
  }

  /**
   * The relay invariant: entries are filed correctly, no room is empty, every
   * connection has ids and a bounded outbox and has had `closeCh` closed at most once.
   */
  ghost predicate Valid(s: Relay)
  {
    && Filed(s)
    && NoEmptyRooms(s.rooms)
    && forall id :: id in s.conns ==>
         s.conns[id].peer != "" && s.conns[id].room != "" && Bounded(s.conns[id]) && ClosedOnce(s.conns[id])
  }

  /** Filing by own ids means no two peers of a room share a connection. */
  lemma FiledRoomsInjective(s: Relay, rid: RoomId)
    requires Filed(s) && rid in s.rooms
    ensures Injective(s.rooms[rid]) && Resolves(s.rooms[rid], s.conns)
  {
  }

  /** The connection is the one the registry holds under its own room and peer id. */
  predicate Registered(s: Relay, id: ConnId)
  {
    && id in s.conns
    && s.conns[id].room in s.rooms
    && s.conns[id].peer in s.rooms[s.conns[id].room]
    && s.rooms[s.conns[id].room][s.conns[id].peer] == id
  }

  datatype ConnectError = MissingRoomOrPeer

  /**
   * A websocket upgrade: refused when the room or peer query parameter is empty,
   * otherwise a fresh connection `id` is created and joined under its ids.
   */
  function Connect(s: Relay, id: ConnId, roomId: RoomId, peerId: PeerId, onClose: bool): (r: Result<Relay, ConnectError>)
    requires id !in s.conns
    ensures r.Failure? <==> roomId == "" || peerId == ""
    ensures r.Success? ==> Registered(r.value, id)
    ensures r.Success? ==> r.value.conns[id] == Conn(peerId, roomId, [], false, onClose, 0, 0)
    ensures r.Success? ==> forall c :: c in s.conns ==> c in r.value.conns && r.value.conns[c] == s.conns[c]
    ensures r.Success? ==> r.value.conns.Keys == s.conns.Keys + {id}
    ensures r.Success? ==> r.value.rooms == Hub.Join(s.rooms, roomId, peerId, id)
  {
    if roomId == "" || peerId == "" then Failure(MissingRoomOrPeer)
    else
      var c := Conn(peerId, roomId, [], false, onClose, 0, 0);
      Success(Relay(Hub.Join(s.rooms, roomId, peerId, id), s.conns[id := c]))
  }

  lemma ConnectPreservesValid(s: Relay, id: ConnId, roomId: RoomId, peerId: PeerId, onClose: bool)
    requires Valid(s) && id !in s.conns
    requires Connect(s, id, roomId, peerId, onClose).Success?
    ensures Valid(Connect(s, id, roomId, peerId, onClose).value)
  {
    var r := Connect(s, id, roomId, peerId, onClose).value;
    JoinLeaveKeepRoomsNonEmpty(s.rooms, roomId, peerId, id);
    forall rid, p | rid in r.rooms && p in r.rooms[rid]
      ensures r.rooms[rid][p] in r.conns && r.conns[r.rooms[rid][p]].peer == p && r.conns[r.rooms[rid][p]].room == rid
    {
      if rid != roomId || p != peerId {
        assert r.rooms[rid][p] == s.rooms[rid][p];
      }
    }
  }

  /**
   * `cleanup`: close `closeCh` unless already closed, remove the connection's peer id
   * from its room, then run the close callback if there is one.
   */
  function Cleanup(s: Relay, id: ConnId): (r: Relay)
    requires id in s.conns
    ensures r.rooms == Hub.Leave(s.rooms, s.conns[id].room, s.conns[id].peer)
    ensures r.conns.Keys == s.conns.Keys
    ensures forall c :: c in s.conns && c != id ==> r.conns[c] == s.conns[c]
  {
    var c := s.conns[id];
    var c1 := if c.closed then c else c.(closed := true, closes := c.closes + 1);
    var c2 := if c.onClose then c1.(onCloseRuns := c1.onCloseRuns + 1) else c1;
    Relay(Hub.Leave(s.rooms, c.room, c.peer), s.conns[id := c2])
  }

  /** After cleanup the connection is closed, its peer id is gone from its room, and so is the room if that was its last peer. */
  lemma CleanupEffects(s: Relay, id: ConnId)
    requires id in s.conns
    ensures Cleanup(s, id).conns[id].closed
    ensures Cleanup(s, id).conns[id]
         == s.conns[id].(closed := true, onCloseRuns := Cleanup(s, id).conns[id].onCloseRuns,
                         closes := Cleanup(s, id).conns[id].closes)
    ensures Cleanup(s, id).conns[id].closes == s.conns[id].closes + (if s.conns[id].closed then 0 else 1)
    ensures Cleanup(s, id).conns[id].onCloseRuns == s.conns[id].onCloseRuns + (if s.conns[id].onClose then 1 else 0)
    ensures var c := s.conns[id];
      c.room in Cleanup(s, id).rooms ==> c.peer !in Cleanup(s, id).rooms[c.room]
    ensures var c := s.conns[id];
      c.room in s.rooms && s.rooms[c.room].Keys == {c.peer} ==> c.room !in Cleanup(s, id).rooms
  {
  }

  /**
   * A second cleanup leaves the registry and the close flag as the first left them and
   * does not close `closeCh` again; only the callback runs again.
   */
  lemma CleanupTwice(s: Relay, id: ConnId)
    requires id in s.conns
    ensures Cleanup(Cleanup(s, id), id).rooms == Cleanup(s, id).rooms
    ensures Cleanup(Cleanup(s, id), id).conns[id].closed
    ensures Cleanup(Cleanup(s, id), id).conns[id].closes == Cleanup(s, id).conns[id].closes
         == s.conns[id].closes + (if s.conns[id].closed then 0 else 1)
    ensures Cleanup(Cleanup(s, id), id).conns[id].onCloseRuns
         == s.conns[id].onCloseRuns + (if s.conns[id].onClose then 2 else 0)
  {
    var c := s.conns[id];
    var r := Cleanup(s, id);
    assert r.conns[id].room == c.room && r.conns[id].peer == c.peer;
    if c.room in r.rooms {
      assert r.rooms[c.room] - {c.peer} == r.rooms[c.room];
    }
  }

  lemma CleanupPreservesValid(s: Relay, id: ConnId)
    requires Valid(s) && id in s.conns
    ensures Valid(Cleanup(s, id))
  {
    var c := s.conns[id];
    var r := Cleanup(s, id);
    JoinLeaveKeepRoomsNonEmpty(s.rooms, c.room, c.peer, id);
    assert r.conns[id].peer == c.peer && r.conns[id].room == c.room && r.conns[id].outbox == c.outbox;
    forall rid, p | rid in r.rooms && p in r.rooms[rid]
      ensures r.rooms[rid][p] in r.conns && r.conns[r.rooms[rid][p]].peer == p && r.conns[r.rooms[rid][p]].room == rid
    {
      assert r.rooms[rid][p] == s.rooms[rid][p];
    }
  }

  /**
   * Cleanup removes by peer id: a late cleanup of a retired connection evicts a newer
   * connection that has since been registered under the same room and peer id, and
   * leaves that newer connection open.
   */
  lemma StaleCleanupEvictsSuccessor(s: Relay, retired: ConnId, successor: ConnId)
    requires Valid(s) && Registered(s, retired) && successor !in s.conns
    ensures var s1 := Cleanup(s, retired);
      var c := s.conns[retired];
      && Connect(s1, successor, c.room, c.peer, true).Success?
      && Registered(Connect(s1, successor, c.room, c.peer, true).value, successor)
      && !Registered(Cleanup(Connect(s1, successor, c.room, c.peer, true).value, retired), successor)
      && !Cleanup(Connect(s1, successor, c.room, c.peer, true).value, retired).conns[successor].closed
  {
    var c := s.conns[retired];
    var s1 := Cleanup(s, retired);
    var s2 := Connect(s1, successor, c.room, c.peer, true).value;
    var s3 := Cleanup(s2, retired);
    assert s2.conns[retired].room == c.room && s2.conns[retired].peer == c.peer;
    assert s3.conns[successor] == s2.conns[successor];
  }
}

=== FILE: message.dfy ===
/**
 * The wire envelope of the relay (internal/signaling/message.go): the message
 * type tags, the Envelope record, and what `json.Marshal` / `json.Unmarshal`
 * make of it given its struct tags.
 */
module Message {
  import opened Basics
  import opened Json

  /** The message types the relay names as constants. */
  datatype MsgType = MsgJoin | MsgLeave | MsgMessage | MsgOffer | MsgAnswer | MsgCandidate | MsgPing | MsgPong

  /** The wire tag of each message type. */
  function Tag(t: MsgType): string
  {
    match t
    case MsgJoin => "join"
    case MsgLeave => "leave"
    case MsgMessage => "message"
    case MsgOffer => "offer"
    case MsgAnswer => "answer"
    case MsgCandidate => "candidate"
    case MsgPing => "ping"
    case MsgPong => "pong"
  }

  /** The tag the join handler writes for its notification; it has no constant of its own. */
  const PeerJoined: string := "peer_joined"

  /** Which constant, if any, a type string equals: the relay's `switch env.Type`. */
  function Classify(s: string): (r: Option<MsgType>)
    ensures forall t :: r == Some(t) <==> Tag(t) == s
  {
    if s == "join" then Some(MsgJoin)
    else if s == "leave" then Some(MsgLeave)
    else if s == "message" then Some(MsgMessage)
    else if s == "offer" then Some(MsgOffer)
    else if s == "answer" then Some(MsgAnswer)
    else if s == "candidate" then Some(MsgCandidate)
    else if s == "ping" then Some(MsgPing)
    else if s == "pong" then Some(MsgPong)
    else None
  }

  /** The eight tags are pairwise distinct, and the notification tag is none of them. */
  lemma TagsDistinct()
    ensures forall t, u :: Tag(t) == Tag(u) ==> t == u
    ensures forall t :: Tag(t) != PeerJoined
    ensures Classify(PeerJoined) == None
  {
  }

  /**
   * The Envelope struct. `typ` is `Type`; raw-message fields are `Option<Json>`,
   * `None` standing for a nil `json.RawMessage`.
   */
  datatype Envelope = Envelope(
    typ: string,
    roomId: string,
    from: string,
    to: string,
    payload: Option<Json>,
    room: string,
    offer: Option<Json>,
    answer: Option<Json>,
    candidate: Option<Json>)

  /** The zero Envelope, which `json.Unmarshal` starts from. */
  const Empty := Envelope("", "", "", "", None, "", None, None, None)

  /** The struct's fields, in declaration order. */
  datatype Field = FType | FRoomId | FFrom | FTo | FPayload | FRoom | FOffer | FAnswer | FCandidate

  const Fields: seq<Field> := [FType, FRoomId, FFrom, FTo, FPayload, FRoom, FOffer, FAnswer, FCandidate]

  /** The JSON key of each field, from its struct tag. */
  function Key(f: Field): string
  {
    match f
    case FType => "type"
    case FRoomId => "roomId"
    case FFrom => "from"
    case FTo => "to"
    case FPayload => "payload"
    case FRoom => "room"
    case FOffer => "offer"
    case FAnswer => "answer"
    case FCandidate => "candidate"
  }

  /** Fields of Go type string (or MsgType); the others are raw messages. */
  predicate IsText(f: Field)
  {
    f in {FType, FRoomId, FFrom, FTo, FRoom}
  }

  /** The content of one field, whichever its Go type. */
  datatype FieldValue = Text(s: string) | Raw(o: Option<Json>)

  function Get(e: Envelope, f: Field): (v: FieldValue)
    ensures v.Text? <==> IsText(f)
  {
    match f
    case FType => Text(e.typ)
    case FRoomId => Text(e.roomId)
    case FFrom => Text(e.from)
    case FTo => Text(e.to)
    case FPayload => Raw(e.payload)
    case FRoom => Text(e.room)
    case FOffer => Raw(e.offer)
    case FAnswer => Raw(e.answer)
    case FCandidate => Raw(e.candidate)
  }

  /** Overwrite one field, leaving the others as they are. */
  function With(e: Envelope, f: Field, v: FieldValue): (r: Envelope)
    requires v.Text? <==> IsText(f)
    ensures Get(r, f) == v
    ensures forall g :: g != f ==> Get(r, g) == Get(e, g)
  {
    match f
    case FType => e.(typ := v.s)
    case FRoomId => e.(roomId := v.s)
    case FFrom => e.(from := v.s)
    case FTo => e.(to := v.s)
    case FPayload => e.(payload := v.o)
    case FRoom => e.(room := v.s)
    case FOffer => e.(offer := v.o)
    case FAnswer => e.(answer := v.o)
    case FCandidate => e.(candidate := v.o)
  }

  /** Two envelopes that agree on every field are the same envelope. */
  lemma Extensionality(a: Envelope, b: Envelope)
    requires forall f :: Get(a, f) == Get(b, f)
    ensures a == b
  {
    assert Get(a, FType) == Get(b, FType) && Get(a, FRoomId) == Get(b, FRoomId);
    assert Get(a, FFrom) == Get(b, FFrom) && Get(a, FTo) == Get(b, FTo);
    assert Get(a, FPayload) == Get(b, FPayload) && Get(a, FRoom) == Get(b, FRoom);
    assert Get(a, FOffer) == Get(b, FOffer) && Get(a, FAnswer) == Get(b, FAnswer);
    assert Get(a, FCandidate) == Get(b, FCandidate);
  }

  /** A field holding its zero value: `omitempty` leaves it out. */
  predicate IsZero(e: Envelope, f: Field)
  {
    Get(e, f) == Get(Empty, f)
  }

  // ---------------------------------------------------------------- encoding

  /** What `json.Marshal` writes for one field: `type` always, every other field only when non-empty. */
  function Emitted(e: Envelope, f: Field): seq<Member>
  {
    if f != FType && IsZero(e, f) then []
    else
      match Get(e, f)
      case Text(s) => [Member(Key(f), Str(s))]
      case Raw(o) => [Member(Key(f), o.value)]
  }

  function EmitAll(e: Envelope, fs: seq<Field>): seq<Member>
  {
    if fs == [] then [] else Emitted(e, fs[0]) + EmitAll(e, fs[1..])
  }

  /** `json.Marshal` of an Envelope (the relay's `mustMarshal`): an object with the fields in declaration order. */
  function Encode(e: Envelope): (j: Json)
    ensures j.Obj?
    ensures |j.members| >= 1 && j.members[0] == Member("type", Str(e.typ))
  {
    Obj(EmitAll(e, Fields))
  }

  // ---------------------------------------------------------------- decoding

  datatype DecodeError = Malformed | NotAnObject | WrongType(key: string)

  /** The field a JSON key selects; Go accepts any ASCII-case variant of the tag. */
  function FieldOf(key: string): (r: Option<Field>)
    ensures forall f :: r == Some(f) <==> FoldEq(key, Key(f))
  {
    if FoldEq(key, "type") then (FoldUnique(key, FType); Some(FType))
    else if FoldEq(key, "roomId") then (FoldUnique(key, FRoomId); Some(FRoomId))
    else if FoldEq(key, "from") then (FoldUnique(key, FFrom); Some(FFrom))
    else if FoldEq(key, "to") then (FoldUnique(key, FTo); Some(FTo))
    else if FoldEq(key, "payload") then (FoldUnique(key, FPayload); Some(FPayload))
    else if FoldEq(key, "room") then (FoldUnique(key, FRoom); Some(FRoom))
    else if FoldEq(key, "offer") then (FoldUnique(key, FOffer); Some(FOffer))
    else if FoldEq(key, "answer") then (FoldUnique(key, FAnswer); Some(FAnswer))
    else if FoldEq(key, "candidate") then (FoldUnique(key, FCandidate); Some(FCandidate))
    else None
  }

  /** A key folds to at most one tag: the nine tags are distinct even ignoring case. */
  lemma FoldUnique(key: string, f: Field)
    requires FoldEq(key, Key(f))
    ensures forall g :: FoldEq(key, Key(g)) ==> g == f
  {
    forall g | FoldEq(key, Key(g))
      ensures g == f
    {
      assert FoldEq(Key(f), Key(g)) by {
        forall i | 0 <= i < |Key(f)|
          ensures Lower(Key(f)[i]) == Lower(Key(g)[i])
        {
          assert Lower(key[i]) == Lower(Key(f)[i]);
        }
      }
      TagsFoldDistinct(f, g);
    }
  }

  /** Distinct fields have keys that differ even ignoring case. */
  lemma TagsFoldDistinct(f: Field, g: Field)
    requires FoldEq(Key(f), Key(g))
    ensures f == g
  {
    var a, b := Key(f), Key(g);
    if |a| >= 2 {
      assert Lower(a[0]) == Lower(b[0]) && Lower(a[1]) == Lower(b[1]);
    }
  }

  /** Store one decoded value: strings accept a string or ignore null, raw fields take any value. */
  function Assign(e: Envelope, f: Field, v: Json): (r: Result<Envelope, DecodeError>)
    ensures r.Failure? <==> IsText(f) && !v.Str? && !v.Null?
    ensures r.Success? && IsText(f) && v.Str? ==> Get(r.value, f) == Text(v.s)
    ensures r.Success? && IsText(f) && v.Null? ==> r.value == e
    ensures r.Success? && !IsText(f) ==> Get(r.value, f) == Raw(Some(v))
    ensures r.Success? ==> forall g :: g != f ==> Get(r.value, g) == Get(e, g)
  {
    if IsText(f) then
      match v
      case Str(s) => Success(With(e, f, Text(s)))
      case Null => Success(e)
      case _ => Failure(WrongType(Key(f)))
    else Success(With(e, f, Raw(Some(v))))
  }

  /** A member Go would refuse: a recognised string field holding neither a string nor null. */
  predicate Refused(m: Member)
  {
    match FieldOf(m.key)
    case None => false
    case Some(f) => IsText(f) && !m.value.Str? && !m.value.Null?
  }

  /** Decode the members of an object in order into `acc`; later duplicates overwrite earlier ones. */
  function DecodeMembers(ms: seq<Member>, acc: Envelope): (r: Result<Envelope, DecodeError>)
    ensures r.Success? <==> forall i :: 0 <= i < |ms| ==> !Refused(ms[i])
  {
    if ms == [] then Success(acc)
    else
      var rest := ms[1..];
      assert forall i :: 0 < i < |ms| ==> ms[i] == rest[i - 1];
      match FieldOf(ms[0].key)
      case None => DecodeMembers(rest, acc)
      case Some(f) =>
        match Assign(acc, f, ms[0].value)
        case Failure(err) => Failure(err)
        case Success(acc') => DecodeMembers(rest, acc')
  }

  /** `json.Unmarshal` into an Envelope: a top-level null leaves the zero value, other non-objects fail. */
  function Decode(j: Json): (r: Result<Envelope, DecodeError>)
    ensures r.Success? <==> j.Null? || (j.Obj? && forall i :: 0 <= i < |j.members| ==> !Refused(j.members[i]))
    ensures j.Null? ==> r == Success(Empty)
  {
    match j
    case Null => Success(Empty)
    case Obj(ms) => DecodeMembers(ms, Empty)
    case _ => Failure(NotAnObject)
  }

  /** Decoding a frame: bytes that are not JSON fail before any field is looked at. */
  function DecodeFrame(data: Frame): (r: Result<Envelope, DecodeError>)
    ensures data.Unparsable? ==> r.Failure?
  {
    match data
    case Unparsable => Failure(Malformed)
    case Parsed(j) => Decode(j)
  }

  // ---------------------------------------------------------------- round trip

  lemma {:induction false} DecodeAppend(a: seq<Member>, b: seq<Member>, acc: Envelope)
    requires DecodeMembers(a, acc).Success?
    ensures DecodeMembers(a + b, acc) == DecodeMembers(b, DecodeMembers(a, acc).value)
  {
    if a != [] {
      assert (a + b)[0] == a[0];
      assert (a + b)[1..] == a[1..] + b;
      match FieldOf(a[0].key)
      case None => DecodeAppend(a[1..], b, acc);
      case Some(f) => DecodeAppend(a[1..], b, Assign(acc, f, a[0].value).value);
    } else {
      assert a + b == b;
    }
  }

  lemma KeyFieldOf(f: Field)
    ensures FieldOf(Key(f)) == Some(f)
  {
    assert FoldEq(Key(f), Key(f));
  }

  /** Decoding one emitted field: the field takes the encoded value, an omitted field keeps its value. */
  lemma DecodeEmitted(e: Envelope, f: Field, acc: Envelope)
    requires IsZero(acc, f)
    ensures DecodeMembers(Emitted(e, f), acc).Success?
    ensures Get(DecodeMembers(Emitted(e, f), acc).value, f) == Get(e, f)
    ensures forall g :: g != f ==> Get(DecodeMembers(Emitted(e, f), acc).value, g) == Get(acc, g)
  {
    KeyFieldOf(f);
    var ms := Emitted(e, f);
    if ms != [] {
      assert ms[1..] == [];
      match Get(e, f)
      case Text(s) =>
        assert DecodeMembers(ms, acc) == Success(With(acc, f, Text(s)));
      case Raw(o) =>
        assert o.Some?;
        assert DecodeMembers(ms, acc) == Success(With(acc, f, Raw(Some(o.value))));
    }
  }

  lemma {:induction false} DecodeEmitAll(e: Envelope, fs: seq<Field>, acc: Envelope)
    requires forall i, j :: 0 <= i < j < |fs| ==> fs[i] != fs[j]
    requires forall f :: f in fs ==> IsZero(acc, f)
    requires forall f :: f !in fs ==> Get(acc, f) == Get(e, f)
    ensures DecodeMembers(EmitAll(e, fs), acc) == Success(e)
  {
    if fs == [] {
      Extensionality(acc, e);
    } else {
      var f := fs[0];
      DecodeEmitted(e, f, acc);
      var acc' := DecodeMembers(Emitted(e, f), acc).value;
      DecodeAppend(Emitted(e, f), EmitAll(e, fs[1..]), acc);
      forall g | g in fs[1..]
        ensures IsZero(acc', g)
      {
        assert g != f;
      }
      DecodeEmitAll(e, fs[1..], acc');
    }
  }

  /** Every field is written, each once. */
  lemma FieldsListed(f: Field)
    ensures f in Fields
    ensures forall i, j :: 0 <= i < j < |Fields| ==> Fields[i] != Fields[j]
  {
    assert f.FType? || f.FRoomId? || f.FFrom? || f.FTo? || f.FPayload? || f.FRoom? || f.FOffer? || f.FAnswer? || f.FCandidate?;
  }

  /** Decoding an encoded envelope gives back every field; an omitted key decodes to the empty value. */
  lemma RoundTrip(e: Envelope)
    ensures Decode(Encode(e)) == Success(e)
  {
    forall f
      ensures f in Fields
    {
      FieldsListed(f);
    }
    FieldsListed(FType);
    DecodeEmitAll(e, Fields, Empty);
  }

  // ---------------------------------------------------------------- the browser's view

  /** What one field writes carries only that field's key. */
  lemma EmittedKey(e: Envelope, g: Field, f: Field)
    requires g != f
    ensures Last(Emitted(e, g), Key(f)) == None
  {
    if Key(g) == Key(f) {
      assert FoldEq(Key(g), Key(f));
      TagsFoldDistinct(g, f);
    }
  }

  lemma {:induction false} LastEmitAll(e: Envelope, fs: seq<Field>, f: Field)
    requires forall i, j :: 0 <= i < j < |fs| ==> fs[i] != fs[j]
    ensures Last(EmitAll(e, fs), Key(f)) == if f in fs then Last(Emitted(e, f), Key(f)) else None
  {
    if fs != [] {
      var rest := fs[1..];
      assert forall i, j :: 0 <= i < j < |rest| ==> rest[i] != rest[j] by {
        assert forall i :: 0 <= i < |rest| ==> rest[i] == fs[i + 1];
      }
      LastEmitAll(e, rest, f);
      LastAppend(Emitted(e, fs[0]), EmitAll(e, rest), Key(f));
      assert f in fs <==> f == fs[0] || f in rest;
      if fs[0] != f {
        EmittedKey(e, fs[0], f);
      } else {
        assert f !in rest by {
          assert forall i :: 0 <= i < |rest| ==> rest[i] == fs[i + 1];
        }
      }
    }
  }

  /**
   * Reading an encoded envelope by exact key, as the browser does: `type` is always
   * there, every other key is present exactly when its field is non-empty, and it
   * holds the field's value.
   */
  lemma EncodedProp(e: Envelope, f: Field)
    ensures Prop(Encode(e), Key(f)).None? <==> f != FType && IsZero(e, f)
    ensures IsText(f) && Prop(Encode(e), Key(f)).Some? ==> Prop(Encode(e), Key(f)) == Some(Str(Get(e, f).s))
    ensures !IsText(f) ==> Prop(Encode(e), Key(f)) == Get(e, f).o
  {
    FieldsListed(f);
    LastEmitAll(e, Fields, f);
    var ms := Emitted(e, f);
    if !(f != FType && IsZero(e, f)) {
      assert ms == [ms[0]] && ms[0].key == Key(f);
    }
  }
}
